=== FILE: README.md ===
# Pets provider and small app cores, in Dafny

A model of the Android `PetProvider` content provider of the Pets app and of its
`PetContract` schema, together with four small pure cores from sibling apps of the same
repository: the JustJava coffee counter and price, the QuakeReport location splitter and
magnitude colours, the Miwok `Word` value type and the Miwok `CategoryAdapter` tab mapping.

The provider is modelled as pure state transitions. A `PetProvider.State` holds the pets
table (rows keyed by `_id` plus a fresh-id allocator) and the log of every URI passed to
`notifyChange`. Each of `query`, `insert`, `update` and `delete` maps a state and its
arguments to a `Reply`: the next state and either the returned value or the Java exception
the call throws (`IllegalArgumentException` with its reason, `IllegalStateException`, or the
`NumberFormatException` that `ContentUris.parseId` raises on an over-long id).

The platform pieces the provider leans on are modelled as far as the provider uses them:

- `UriMatcher` (module `Uris`): the table built by the two `addURI` calls, matched first
  registration first, `#` accepting a run of decimal digits. The scheme is not compared.
- `ContentUris.withAppendedId` and `parseId` (module `Uris`), with `String.valueOf(long)` and
  `Long.parseLong` / `Integer.parseInt` in module `Decimal`.
- `ContentValues` (module `ContentValues`): a map from column to `null`, a string or an
  integer, read back with `getAsString` and `getAsInteger`.
- `String.contains` and `String.split` with a literal separator (module `Strings`),
  including the way `split` drops trailing empty pieces.
- SQLite (module `PetStore`): a map from id to row. A caller's selection is not parsed; how
  the database evaluates it is a function passed in (`Interp`). Only the provider's own
  `_id=?` selection has a fixed meaning.

The model follows what the code does, in particular:

- An empty pet name is accepted; only a missing or `null` name is rejected.
- A failed database insert does not raise a storage error: `insert` returns `null`
  (`Returned(None)`) and sends no notification.
- Errors are the Java exceptions the code throws, not a separate error type; a malformed
  number in an item URI surfaces as `NumberFormatException`.
- A weight stored as text that does not parse as an integer reads as absent and passes
  both checks, as `getAsInteger` returns `null` for it.

## Model

| member | source | states |
|---|---|---|
| `PetContract.IsGenderValid` | Pets/app/src/main/java/com/example/android/pets/data/PetContract.java:132-142 | a gender is valid exactly when it is 0, 1 or 2 |
| `PetContract.GenderConstantsValid` | Pets/app/src/main/java/com/example/android/pets/data/PetContract.java:124-137 | unknown, male and female are pairwise distinct and each one is valid |
| `PetContract.ContentUriText` | Pets/app/src/main/java/com/example/android/pets/data/PetContract.java:26-55 | the base URI is `content://` plus the authority with no path; the collection URI adds the single segment `pets` |
| `PetContract.MimeTypesShareSuffix` | Pets/app/src/main/java/com/example/android/pets/data/PetContract.java:63-73 | list and item MIME types are the dir/item base type followed by the same `/authority/pets` suffix, and they differ |
| `Uris.Match` | Pets/app/src/main/java/com/example/android/pets/data/PetProvider.java:30-40 | the matcher answers the code of the first registration that accepts the URI, and no-match when none does |
| `PetProvider.MatchUri` | Pets/app/src/main/java/com/example/android/pets/data/PetProvider.java:74 | the matcher answers the collection code, the item code or no-match, and a code only for a path starting with `pets` under the pets authority |
| `PetProvider.RoutesRegistered` | Pets/app/src/main/java/com/example/android/pets/data/PetProvider.java:33-41 | the static initializer registers `pets` and `pets` followed by a number under the pets authority |
| `PetProvider.RouterClassifies` | Pets/app/src/main/java/com/example/android/pets/data/PetProvider.java:20-40 | a URI is the collection exactly when its path is `pets`, an item exactly when it is `pets/<digits>`, and no-match otherwise |
| `PetProvider.EffectiveWhere` | Pets/app/src/main/java/com/example/android/pets/data/PetProvider.java:74-103 | the collection passes the caller's selection through; an item replaces it with `_id=?` bound to the URI's id, or throws when the id does not parse; any other URI is refused |
| `PetProvider.ItemIgnoresSelection` | Pets/app/src/main/java/com/example/android/pets/data/PetProvider.java:85-101 | on an item URI any two caller selections give the same WHERE part, which selects the row with the URI's id and nothing else |
| `PetProvider.Query` | Pets/app/src/main/java/com/example/android/pets/data/PetProvider.java:64-117 | a query changes nothing, throws exactly when the URI is refused, answers the rows its WHERE part selects unchanged, and tags the cursor with the request URI |
| `PetProvider.QueryItem` | Pets/app/src/main/java/com/example/android/pets/data/PetProvider.java:85-116 | a query on an item URI answers that pet's row alone, or no row, whatever the caller's selection |
| `PetProvider.CheckInsert` | Pets/app/src/main/java/com/example/android/pets/data/PetProvider.java:139-161 | the insert checks pass exactly for a valid pet row and never report an unsupported URI |
| `PetProvider.CheckUpdate` | Pets/app/src/main/java/com/example/android/pets/data/PetProvider.java:228-255 | each update check fails only when its own column is among the values, and never reports an unsupported URI |
| `PetProvider.CheckInsertExact` | Pets/app/src/main/java/com/example/android/pets/data/PetProvider.java:137-161 | insert validation accepts exactly the values that form a valid pet; the name check fails exactly for a missing or null name, so an empty name passes it |
| `PetProvider.BreedNeverChecked` | Pets/app/src/main/java/com/example/android/pets/data/PetProvider.java:139-163 | any breed, null included, gives insert and update the same verdict as no breed at all |
| `PetProvider.CheckUpdateExact` | Pets/app/src/main/java/com/example/android/pets/data/PetProvider.java:228-255 | update validation accepts exactly the values that keep any valid row valid when written over it |
| `PetProvider.Insert` | Pets/app/src/main/java/com/example/android/pets/data/PetProvider.java:122-131 | insert on anything but the collection URI throws before validation or storage; it throws exactly on a refused URI or failed validation, answers null exactly when the database fails, and both leave the state unchanged |
| `PetProvider.InsertPet` | Pets/app/src/main/java/com/example/android/pets/data/PetProvider.java:137-194 | a rejected insert throws the first failed check with nothing changed; a database failure answers null with nothing changed; a success stores the values under a fresh id, notifies the URI once and returns the URI with the id appended |
| `PetProvider.AppendedIdRoutesToItem` | Pets/app/src/main/java/com/example/android/pets/data/PetProvider.java:186-192 | appending a positive id to the collection URI gives an item URI whose parsed id is that id |
| `PetProvider.InsertedUriAddressesRow` | Pets/app/src/main/java/com/example/android/pets/data/PetProvider.java:171-192 | a successful insert adds one row and one notification, and querying the returned URI answers exactly the new row |
| `PetProvider.Update` | Pets/app/src/main/java/com/example/android/pets/data/PetProvider.java:197-214 | update throws, with the state unchanged, exactly on a refused URI or a failed check of non-empty values; it never adds or removes rows; with values it writes them into exactly the rows its WHERE part selects and answers their number; it notifies exactly when it answers a non-zero count |
| `PetProvider.UpdateItem` | Pets/app/src/main/java/com/example/android/pets/data/PetProvider.java:204-210 | an update of an item URI writes that pet's row alone, whatever the caller's selection, and answers 1 when the pet is stored and 0 otherwise |
| `PetProvider.UpdatePet` | Pets/app/src/main/java/com/example/android/pets/data/PetProvider.java:221-275 | empty values answer 0 with nothing changed; failed checks throw with nothing changed; otherwise every selected row gets the new values, the others stay, the answer is the number selected, and the URI is notified exactly when it is non-zero |
| `PetProvider.Delete` | Pets/app/src/main/java/com/example/android/pets/data/PetProvider.java:280-316 | delete removes exactly the selected rows, answers how many went, always notifies the collection URI and notifies an item URI exactly when a row went |
| `PetProvider.DeleteMissingItem` | Pets/app/src/main/java/com/example/android/pets/data/PetProvider.java:298-311 | deleting an item that is not stored answers 0 and changes nothing, log included |
| `PetProvider.GetType` | Pets/app/src/main/java/com/example/android/pets/data/PetProvider.java:331-342 | the list type exactly for the collection, the item type exactly for an item, and `IllegalStateException` for any other URI |
| `PetProvider.UnknownUriRejected` | Pets/app/src/main/java/com/example/android/pets/data/PetProvider.java:64-342 | a URI the matcher does not know makes query, insert, update and delete throw with the state unchanged, and getType throw |
| `PetProvider.Step` | Pets/app/src/main/java/com/example/android/pets/data/PetProvider.java:113-311 | one provider call extends the notification log by nothing or by its own URI |
| `PetProvider.StepPreservesValid` | Pets/app/src/main/java/com/example/android/pets/data/PetProvider.java:137-275 | no provider call stores a pet without a name, with an invalid gender or with a negative weight |
| `PetProvider.RunPreservesValid` | Pets/app/src/main/java/com/example/android/pets/data/PetProvider.java:137-275 | after any sequence of calls from a valid table every stored pet is still valid, and earlier notifications stay in the log |
| `PetProvider.ReachableTablesValid` | Pets/app/src/main/java/com/example/android/pets/data/PetProvider.java:137-275 | every table reachable from the provider's empty start holds only valid pets |
| `PetStore.MatchingId` | Pets/app/src/main/java/com/example/android/pets/data/PetProvider.java:94-95 | the selection `_id=?` selects the row with that id if stored, and nothing else |
| `PetStore.SelectId` | Pets/app/src/main/java/com/example/android/pets/data/PetProvider.java:94-101 | a select with `_id=?` answers the row with that id if stored, and nothing otherwise |
| `PetStore.InsertRow` | Pets/app/src/main/java/com/example/android/pets/data/PetProvider.java:171 | an insert stores the row under a positive id not used before and adds exactly one row |
| `PetStore.UpdateRows` | Pets/app/src/main/java/com/example/android/pets/data/PetProvider.java:264 | an update keeps the set of ids, overwrites the given columns of the selected rows only, and counts the selected rows |
| `PetStore.DeleteRows` | Pets/app/src/main/java/com/example/android/pets/data/PetProvider.java:291-302 | a delete removes exactly the selected rows, keeps the others unchanged, and counts the removed ones |
| `ContentValues.GetAsString` | Pets/app/src/main/java/com/example/android/pets/data/PetProvider.java:140 | the string view is null exactly for an absent key or a null value, and a text value reads as itself |
| `ContentValues.GetAsInteger` | Pets/app/src/main/java/com/example/android/pets/data/PetProvider.java:151-158 | the integer view is null for an absent key or a null value, and an integer value reads as itself |
| `ContentValues.IntegerViewParsesStringView` | Pets/app/src/main/java/com/example/android/pets/data/PetProvider.java:151-158 | reading a column as an integer gives the parsed string view when it is text and the number itself when it is an integer |
| `Uris.WithAppendedId` | Pets/app/src/main/java/com/example/android/pets/data/PetProvider.java:192 | appending an id keeps scheme, authority and the existing segments and adds exactly one segment |
| `Uris.ParseId` | Pets/app/src/main/java/com/example/android/pets/data/PetProvider.java:95 | a parsed id lies in the `long` range; a last segment of digits parses to its value when that value is at most `Long.MAX_VALUE` and throws NumberFormatException when it is larger |
| `Decimal.ParseInt` | Pets/app/src/main/java/com/example/android/pets/data/PetProvider.java:151 | `Integer.parseInt` accepts exactly the texts `Long.parseLong` accepts with a value in the `int` range, and gives the same value |
| `Uris.IdArgumentIsSegment` | Pets/app/src/main/java/com/example/android/pets/data/PetProvider.java:95 | the selection argument printed from the parsed id is the URI's last segment itself when that segment has no leading zeros |
| `Decimal.ShortDigitRunParses` | Pets/app/src/main/java/com/example/android/pets/data/PetProvider.java:95 | a run of 1 to 18 digits always fits in a `long`, so parsing it never throws |
| `Uris.ParseIdWithAppendedId` | Pets/app/src/main/java/com/example/android/pets/data/PetProvider.java:192 | parsing the id of a URI with a long id appended gives that id back |
| `Decimal.ValueOfNatToString` | Pets/app/src/main/java/com/example/android/pets/data/PetProvider.java:95 | reading back the decimal form of a natural number gives the number |
| `Decimal.NatToStringValueOf` | Pets/app/src/main/java/com/example/android/pets/data/PetProvider.java:95 | printing the value of a digit run without leading zeros gives the run back |
| `Decimal.ParseSignedToString` | Pets/app/src/main/java/com/example/android/pets/data/PetProvider.java:95 | parsing the signed decimal form of an in-range number gives the number back |
| `Strings.SplitAll` | QuakeReport/app/src/main/java/com/example/android/quakereport/EarthquakeAdapter.java:111 | the pieces contain no separator, joining them with it gives the text back, and each cut is at the leftmost occurrence after the previous piece (a piece followed by all but the last character of the separator still holds no occurrence), so a self-overlapping separator such as " of " is split as `String.split` splits it |
| `Strings.FirstSeparatorIsLeftmost` | QuakeReport/app/src/main/java/com/example/android/quakereport/EarthquakeAdapter.java:111 | no occurrence of the separator ends inside its first occurrence, so `split` cuts at the leftmost match |
| `Strings.Split` | QuakeReport/app/src/main/java/com/example/android/quakereport/EarthquakeAdapter.java:111 | without the separator the text is the only piece; with it the pieces are all pieces up to the last non-empty one: every dropped piece is empty and the last kept one is not |
| `Strings.SplitHasSecondPiece` | QuakeReport/app/src/main/java/com/example/android/quakereport/EarthquakeAdapter.java:111-115 | when the separator occurs, the split has a second piece exactly when some piece after the first is non-empty |
| `EarthquakeAdapter.SplitLocation` | QuakeReport/app/src/main/java/com/example/android/quakereport/EarthquakeAdapter.java:98-122 | only a location containing the separator can make the split throw, and a primary location never contains the separator |
| `EarthquakeAdapter.SplitWithoutSeparator` | QuakeReport/app/src/main/java/com/example/android/quakereport/EarthquakeAdapter.java:116-122 | without `" of "` the offset is the fixed near-the text and the primary location is the whole text |
| `EarthquakeAdapter.SplitAtFirstSeparator` | QuakeReport/app/src/main/java/com/example/android/quakereport/EarthquakeAdapter.java:107-115 | with `" of "` the split succeeds exactly when some later piece is non-empty; the offset is the text before the first separator plus the separator, and the primary location is the text after it up to the first separator that follows, or to the end when none does |
| `EarthquakeAdapter.SplitReassembles` | QuakeReport/app/src/main/java/com/example/android/quakereport/EarthquakeAdapter.java:111-115 | with one separator and text after it, offset followed by primary location is the original text |
| `EarthquakeAdapter.SplitAtTrailingSeparatorFails` | QuakeReport/app/src/main/java/com/example/android/quakereport/EarthquakeAdapter.java:111-115 | a location whose first separator ends it has no second piece: the split throws |
| `EarthquakeAdapter.MagnitudeColorOf` | QuakeReport/app/src/main/java/com/example/android/quakereport/EarthquakeAdapter.java:213-251 | the colour level is 1 for floors 0 and 1, the floor itself from 2 to 9, and 10 for every other floor |
| `EarthquakeAdapter.MagnitudeBuckets` | QuakeReport/app/src/main/java/com/example/android/quakereport/EarthquakeAdapter.java:215-249 | floors 0 and 1 share the first colour, 2 to 9 each get their own level, every other floor gets the 10+ colour |
| `EarthquakeAdapter.MagnitudeColorMonotone` | QuakeReport/app/src/main/java/com/example/android/quakereport/EarthquakeAdapter.java:217-249 | over non-negative floors a larger floor never gets a lower colour level |
| `JustJava.Increment` | JustJava/app/src/main/java/com/example/android/justjava/MainActivity.java:87-101 | from an in-range quantity plus stays in range, adding one below 100 and nothing at 100 |
| `JustJava.Decrement` | JustJava/app/src/main/java/com/example/android/justjava/MainActivity.java:106-122 | from an in-range quantity minus stays in range, subtracting one above 1 and nothing at 1 |
| `JustJava.CalculatePrice` | JustJava/app/src/main/java/com/example/android/justjava/MainActivity.java:132-148 | for an in-range quantity the `int` price is exactly the unit price with toppings times the quantity |
| `JustJava.IncrementStep` | JustJava/app/src/main/java/com/example/android/justjava/MainActivity.java:87-101 | at 100 plus leaves the quantity alone, below it adds exactly one, and the result stays in range |
| `JustJava.DecrementStep` | JustJava/app/src/main/java/com/example/android/justjava/MainActivity.java:106-122 | at 1 minus leaves the quantity alone, above it subtracts exactly one, and the result stays in range |
| `JustJava.IncrementDecrementInverse` | JustJava/app/src/main/java/com/example/android/justjava/MainActivity.java:87-122 | away from the bound it stops at, each button undoes the other |
| `JustJava.ClicksStayInRange` | JustJava/app/src/main/java/com/example/android/justjava/MainActivity.java:87-122 | any sequence of clicks from an in-range quantity ends in range |
| `JustJava.ReachableQuantitiesInRange` | JustJava/app/src/main/java/com/example/android/justjava/MainActivity.java:21-122 | every quantity reachable from the initial 2 lies in [1, 100] |
| `JustJava.PriceOfOrder` | JustJava/app/src/main/java/com/example/android/justjava/MainActivity.java:132-148 | for an in-range quantity the `int` price is the unit price with toppings times the quantity, with no overflow, between 1 and 800 |
| `JustJava.ToppingRaisesPrice` | JustJava/app/src/main/java/com/example/android/justjava/MainActivity.java:137-144 | adding whipped cream or chocolate makes the order strictly dearer |
| `JustJava.PriceGrowsWithQuantity` | JustJava/app/src/main/java/com/example/android/justjava/MainActivity.java:147 | a larger quantity never costs less |
| `MiwokWord.HasImage` | Miwok/app/src/main/java/com/example/android/miwok/Word.java:91-96 | a word has an image exactly when clearing its image id to the sentinel would change it |
| `MiwokWord.NewWord` | Miwok/app/src/main/java/com/example/android/miwok/Word.java:43-47 | the three-argument word keeps its translations and audio and has no image |
| `MiwokWord.NewWordWithImage` | Miwok/app/src/main/java/com/example/android/miwok/Word.java:59-64 | the four-argument word keeps all four arguments and has an image exactly when the id is not -1 |
| `MiwokWord.NoImageIsSentinel` | Miwok/app/src/main/java/com/example/android/miwok/Word.java:24-64 | the three-argument word equals the four-argument word built with image id -1 |
| `MiwokWord.HasImageExactlyWhenConstructedWithOne` | Miwok/app/src/main/java/com/example/android/miwok/Word.java:83-96 | every word is what the four-argument constructor gives for its own getters, and it lacks an image exactly when the three-argument constructor gives it |
| `MiwokWord.AudioIndependentOfImage` | Miwok/app/src/main/java/com/example/android/miwok/Word.java:43-104 | the audio id does not depend on whether an image was given, nor the image on the audio |
| `CategoryAdapter.GetItem` | Miwok/app/src/main/java/com/example/android/miwok/CategoryAdapter.java:42-52 | the page of the shown category is the position itself for 0 to 2 and 3 for every other position |
| `CategoryAdapter.GetPageTitle` | Miwok/app/src/main/java/com/example/android/miwok/CategoryAdapter.java:62-74 | for every position the page title is the title of the category the page shows |
| `CategoryAdapter.PagesCoverCategories` | Miwok/app/src/main/java/com/example/android/miwok/CategoryAdapter.java:42-60 | the positions 0 to getCount - 1 show four distinct categories, every category among them |
| `CategoryAdapter.OtherPositionsShowPhrases` | Miwok/app/src/main/java/com/example/android/miwok/CategoryAdapter.java:42-74 | any position other than 0, 1 and 2, negative ones included, shows the phrases with the phrases title |

## Left out

- SQLite and `PetDbHelper`: SQL text is not evaluated (a caller's selection is decided by a
  function parameter), projection and sort order are not modelled, and exceptions the database
  may throw on query, update or delete (for example `SQLiteException` for a malformed
  selection) are not modelled.
- Fresh ids: the table hands out ids from a counter that never goes back; SQLite's reuse of
  `max(rowid) + 1` after deleting the highest row, and a caller-supplied `_id` column on insert,
  are not modelled.
- `PetStore.UpdateRows` and `PetProvider.Update`: an `_id` column among the update values is
  merged into the row like any other column and never renumbers it, whereas SQLite's
  `UPDATE ... SET _id = n` moves the row to key `n`; their promise that the set of ids is kept
  holds for the source only when the values carry no `_id`.
- `PetProvider.InsertedUriAddressesRow`: requires the next id to fit in a Java `long`, since
  `Long.parseLong` of a larger id would throw; the database never reaches such ids.
- `ContentResolver.notifyChange` delivery to observers and `setNotificationUri` registration
  are reduced to the log of notified URIs and the URI stored in the cursor.
- `onCreate`, `getContext`, `getReadableDatabase` and `getWritableDatabase`: platform plumbing
  with no effect on the results.
- `Log` calls and every exception message text.
- A URI's query, fragment and user information are not modelled: the URI is its scheme, authority
  and decoded path segments, the only parts `UriMatcher` and `ContentUris.parseId` read.
- URI segments are not constrained to be non-empty, although `getPathSegments()` never
  returns an empty segment; such URIs are outside what the platform produces, and for them the
  model's answers (for example `pets` followed by an empty segment matching the item route and
  failing in `parseId`) carry no meaning.
- `UriMatcher` internals: the platform's tree of path segments is replaced by a first-match
  list scan, which answers the same for the two registrations here.
- `ContentValues` value kinds other than `null`, strings and integers (long, float, boolean,
  byte arrays) are not modelled.
- `Integer.parseInt` and `Long.parseLong` accept only ASCII digits here; the Unicode digits
  `Character.digit` also accepts are not modelled.
- JustJava: `submitOrder`, `composeEmail`, `createOrderSummary` and `displayQuantity` are UI,
  intent and formatting code; the toasts at the bounds are not modelled.
- QuakeReport: `getView` layout inflation and view binding, `formatDate`, `formatTime` and
  `formatMagnitude` (date and decimal formatting libraries), and the colour lookup of
  `ContextCompat.getColor`; the colour is the resource the switch picks.
- `EarthquakeAdapter.MagnitudeColorOf`: takes the integer floor of the magnitude as input;
  the floating-point `Math.floor` and the `(int)` cast are not modelled.
- `EarthquakeAdapter.SplitLocation`: the text of the `near_the` string resource is a
  parameter, since the resource file is not part of this model.
- Miwok: `Word.toString` (debug text only); the page titles are the string resources
  `getPageTitle` looks up, not their localised texts; the fragments themselves and the
  `FragmentManager` are not modelled.
- `QueryUtils`, `EarthquakeLoader`, `Earthquake`, `CatalogActivity`, `EarthquakeActivity` and
  `WordAdapter` are networking, JSON parsing, background loading and UI code and are not part
  of this model.

=== FILE: category_adapter.dfy ===
/** The tabs of the Miwok app: which category page each position shows and its title. */
module CategoryAdapter {
  import opened JavaInt

  /** The fragment a page shows. */
  datatype Category = Numbers | Family | Colors | Phrases

  /** The string resource of a page title. */
  datatype TitleResource = CategoryNumbers | CategoryFamily | CategoryColors | CategoryPhrases

  /** The number of pages, `getCount`. */
  const Count: Int32 := 4

  /** `getItem`: positions 0, 1 and 2 have their own category; every other position, negative
      ones included, shows the phrases. */
  function GetItem(position: Int32): (c: Category)
    ensures PositionOf(c) == if 0 <= position <= 2 then position else 3
  {
    if position == 0 then Numbers
    else if position == 1 then Family
    else if position == 2 then Colors
    else Phrases
  }

  /** `getPageTitle`, as the string resource looked up in the context: every page's title is
      the title of the category the page shows. */
  function GetPageTitle(position: Int32): (title: TitleResource)
    ensures title == TitleOf(GetItem(position))
  {
    if position == 0 then CategoryNumbers
    else if position == 1 then CategoryFamily
    else if position == 2 then CategoryColors
    else CategoryPhrases
  }

  /** The title that belongs to a category. */
  function TitleOf(c: Category): TitleResource
  {
    match c
    case Numbers => CategoryNumbers
    case Family => CategoryFamily
    case Colors => CategoryColors
    case Phrases => CategoryPhrases
  }

  /** The page a category sits on. */
  function PositionOf(c: Category): Int32
  {
    match c
    case Numbers => 0
    case Family => 1
    case Colors => 2
    case Phrases => 3
  }

  /** The pages 0 to Count - 1 show every category exactly once: no two of them show the same
      one, and each category is shown on its own page. */
  lemma PagesCoverCategories()
    ensures forall p: Int32, q: Int32 :: 0 <= p < q < Count ==> GetItem(p) != GetItem(q)
    ensures forall c: Category :: 0 <= PositionOf(c) < Count && GetItem(PositionOf(c)) == c
  {
  }

  /** A position outside 0..2 falls through to the phrases, title included. */
  lemma OtherPositionsShowPhrases(position: Int32)
    requires position < 0 || position > 2
    ensures GetItem(position) == Phrases && GetPageTitle(position) == CategoryPhrases
  {
  }
}

=== FILE: content_values.dfy ===
/** The key/value bag a caller hands to a content provider (`android.content.ContentValues`),
    restricted to the value kinds the pets app stores: `null`, `String` and `Integer`. */
module ContentValues {
  import opened JavaInt
  import opened Optional
  import Decimal

  datatype Value = Null | Text(text: string) | Integer(number: Int32)

  /** Column name to value; a key that is absent differs from a key mapped to `Null`. */
  type Values = map<string, Value>

  /** `getAsString(key)`: `null` for an absent key or a `null` value, otherwise `toString()`. */
  function GetAsString(values: Values, key: string): (r: Option<string>)
    ensures r.None? <==> key !in values || values[key].Null?
    ensures key in values && values[key].Text? ==> r == Some(values[key].text)
  {
    if key !in values then None
    else
      match values[key]
      case Null => None
      case Text(s) => Some(s)
      case Integer(i) => Some(Decimal.SignedToString(i))
  }

  /** `getAsInteger(key)`: an `Integer` as is, a `String` through `Integer.valueOf` (a text
      that does not parse reads as `null`), and `null` otherwise. */
  function GetAsInteger(values: Values, key: string): (r: Option<Int32>)
    ensures key !in values || values[key].Null? ==> r.None?
    ensures key in values && values[key].Integer? ==> r == Some(values[key].number)
  {
    if key !in values then None
    else
      match values[key]
      case Null => None
      case Text(s) => Decimal.ParseInt(s)
      case Integer(i) => Some(i)
  }

  /** The integer view of a value is exactly the parse of its string view. */
  lemma IntegerViewParsesStringView(values: Values, key: string)
    ensures GetAsString(values, key).None? ==> GetAsInteger(values, key).None?
    ensures GetAsString(values, key).Some? ==>
              Decimal.ParseInt(GetAsString(values, key).value) == GetAsInteger(values, key)
  {
    if key in values && values[key].Integer? {
      Decimal.ParseSignedToString(values[key].number, IntMin, IntMax);
    }
  }
}

=== FILE: decimal.dfy ===
/** Decimal text for integers: the printing done by `String.valueOf` / `Integer.toString` /
    `Long.toString`, and the parsing done by `Integer.parseInt` / `Long.parseLong` in radix 10. */
module Decimal {
  import opened JavaInt
  import opened Optional

  predicate IsDigit(c: char) {
    '0' <= c <= '9'
  }

  predicate AllDigits(s: string) {
    forall i :: 0 <= i < |s| ==> IsDigit(s[i])
  }

  function DigitValue(c: char): (d: nat)
    requires IsDigit(c)
    ensures d < 10
  {
    c as int - '0' as int
  }

  function DigitChar(d: nat): (c: char)
    requires d < 10
    ensures IsDigit(c) && DigitValue(c) == d
  {
    (d + '0' as int) as char
  }

  /** The value of a run of decimal digits, most significant digit first; leading zeros are allowed. */
  function ValueOf(s: string): nat
    requires AllDigits(s)
  {
    if |s| == 0 then 0 else 10 * ValueOf(s[..|s| - 1]) + DigitValue(s[|s| - 1])
  }

  /** The shortest decimal form of `n`: digits only, and no leading zero unless `n` is zero. */
  function NatToString(n: nat): (s: string)
    ensures 1 <= |s| && AllDigits(s)
    ensures |s| > 1 ==> s[0] != '0'
    ensures s == "0" <==> n == 0
  {
    if n < 10 then [DigitChar(n)] else NatToString(n / 10) + [DigitChar(n % 10)]
  }

  /** Reading back the printed form of a natural number gives that number. */
  lemma {:induction false} ValueOfNatToString(n: nat)
    ensures ValueOf(NatToString(n)) == n
  {
    if n >= 10 {
      var s := NatToString(n);
      assert s[..|s| - 1] == NatToString(n / 10);
      ValueOfNatToString(n / 10);
    }
  }

  /** A digit run without a leading zero has a positive value. */
  lemma {:induction false} ValueOfPositive(s: string)
    requires AllDigits(s) && 1 <= |s| && s[0] != '0'
    ensures ValueOf(s) >= 1
  {
    if |s| > 1 {
      ValueOfPositive(s[..|s| - 1]);
    }
  }

  /** Printing the value of a canonical digit run gives the run back. */
  lemma {:induction false} NatToStringValueOf(s: string)
    requires AllDigits(s) && 1 <= |s|
    requires |s| > 1 ==> s[0] != '0'
    ensures NatToString(ValueOf(s)) == s
  {
    var n := ValueOf(s);
    var last := s[|s| - 1];
    if |s| == 1 {
      assert s[..|s| - 1] == [];
      assert ValueOf(s[..|s| - 1]) == 0;
      assert n == DigitValue(last);
      assert DigitChar(n) == last;
      assert s == [last];
    } else {
      var p := s[..|s| - 1];
      ValueOfPositive(p);
      NatToStringValueOf(p);
      assert n / 10 == ValueOf(p) && n % 10 == DigitValue(last);
      assert s == p + [last];
    }
  }

  function Pow10(n: nat): (p: nat)
    ensures p >= 1
  {
    if n == 0 then 1 else 10 * Pow10(n - 1)
  }

  /** A run of `n` digits is worth less than 10^n. */
  lemma {:induction false} ValueOfBelowPow10(s: string)
    requires AllDigits(s)
    ensures ValueOf(s) < Pow10(|s|)
  {
    if |s| > 0 {
      var p := s[..|s| - 1];
      ValueOfBelowPow10(p);
      assert ValueOf(p) <= Pow10(|p|) - 1;
      assert 10 * ValueOf(p) <= 10 * Pow10(|p|) - 10;
    }
  }

  /** Powers of ten grow with the exponent. */
  lemma {:induction false} Pow10Monotone(m: nat, n: nat)
    requires m <= n
    ensures Pow10(m) <= Pow10(n)
    decreases n
  {
    if m < n {
      Pow10Monotone(m, n - 1);
    }
  }

  /** Signed decimal form, as `String.valueOf(long)` writes it. */
  function SignedToString(i: int): (s: string)
    ensures 1 <= |s|
    ensures i < 0 <==> s[0] == '-'
  {
    if i < 0 then "-" + NatToString(-i) else NatToString(i)
  }

  /** Radix-10 `Integer.parseInt` / `Long.parseLong` for a result range [lo, hi]: an optional
      sign followed by at least one digit, in range. `None` is the NumberFormatException. */
  function ParseSigned(s: string, lo: int, hi: int): (r: Option<int>)
    ensures r.Some? ==> lo <= r.value <= hi
    ensures r.Some? ==> 1 <= |s| && (IsDigit(s[0]) || s[0] == '-' || s[0] == '+')
  {
    if |s| == 0 then None
    else
      var signed := s[0] == '-' || s[0] == '+';
      var digits := if signed then s[1..] else s;
      if |digits| == 0 || !AllDigits(digits) then None
      else
        var v: int := if s[0] == '-' then -(ValueOf(digits) as int) else ValueOf(digits);
        if lo <= v <= hi then Some(v) else None
  }

  /** Parsing what `SignedToString` printed gives the number back whenever it is in range. */
  lemma ParseSignedToString(i: int, lo: int, hi: int)
    requires lo <= i <= hi
    ensures ParseSigned(SignedToString(i), lo, hi) == Some(i)
  {
    var s := SignedToString(i);
    if i < 0 {
      assert s[1..] == NatToString(-i);
      ValueOfNatToString(-i);
    } else {
      ValueOfNatToString(i);
    }
  }

  /** `Integer.parseInt(s)`: accepts exactly the texts `Long.parseLong` accepts whose value lies
      in the `int` range, and reads them to the same value. */
  function ParseInt(s: string): (r: Option<Int32>)
    ensures r.Some? <==> ParseLong(s).Some? && IntMin <= ParseLong(s).value <= IntMax
    ensures r.Some? ==> r.value as int == ParseLong(s).value
  {
    match ParseSigned(s, IntMin, IntMax)
    case None => None
    case Some(v) => Some(v)
  }

  /** `Long.parseLong(s)`. */
  function ParseLong(s: string): Option<int>
  {
    ParseSigned(s, LongMin, LongMax)
  }

  /** A run of at most 18 digits always fits in a `long`, so `Long.parseLong` reads it. */
  lemma ShortDigitRunParses(s: string)
    requires AllDigits(s) && 1 <= |s| <= 18
    ensures ParseLong(s) == Some(ValueOf(s) as int)
  {
    ValueOfBelowPow10(s);
    Pow10Monotone(|s|, 18);
    Pow10Of18();
  }

  lemma Pow10Of18()
    ensures Pow10(18) == 1_000_000_000_000_000_000
  {
    assert Pow10(1) == 10;
    assert Pow10(2) == 100;
    assert Pow10(3) == 1000;
    assert Pow10(4) == 10000;
    assert Pow10(5) == 100000;
    assert Pow10(6) == 1000000;
    assert Pow10(7) == 10000000;
    assert Pow10(8) == 100000000;
    assert Pow10(9) == 1000000000;
    assert Pow10(10) == 10000000000;
    assert Pow10(11) == 100000000000;
    assert Pow10(12) == 1000000000000;
    assert Pow10(13) == 10000000000000;
    assert Pow10(14) == 100000000000000;
    assert Pow10(15) == 1000000000000000;
    assert Pow10(16) == 10000000000000000;
    assert Pow10(17) == 100000000000000000;
    assert Pow10(18) == 1000000000000000000;
  }
}

=== FILE: earthquake_adapter.dfy ===
/** The two computations of QuakeReport's list adapter that are not formatting: splitting a
    USGS location such as "5km N of Cairo, Egypt" into an offset and a primary location, and
    choosing the colour of the magnitude circle from the magnitude's integer floor. */
module EarthquakeAdapter {
  import opened Optional
  import Strings

  const LocationSeparator := " of "

  /** The two texts shown for a location. */
  datatype Location = Location(offset: string, primary: string)

  /** The location split of `getView`. `nearThe` is the text of the `near_the` string
      resource. `None` is the ArrayIndexOutOfBoundsException thrown when the split yields
      fewer than two pieces. */
  function SplitLocation(original: string, nearThe: string): (r: Option<Location>)
    ensures r.None? ==> Strings.Contains(original, LocationSeparator)
    ensures r.Some? ==> !Strings.Contains(r.value.primary, LocationSeparator)
  {
    if Strings.Contains(original, LocationSeparator) then
      var parts := Strings.Split(original, LocationSeparator);
      if |parts| < 2 then None
      else Some(Location(parts[0] + LocationSeparator, parts[1]))
    else Some(Location(nearThe, original))
  }

  /** Without a separator the whole text is the primary location, after the fixed offset. */
  lemma SplitWithoutSeparator(original: string, nearThe: string)
    requires !Strings.Contains(original, LocationSeparator)
    ensures SplitLocation(original, nearThe) == Some(Location(nearThe, original))
  {
  }

  /** With a separator, the split succeeds exactly when some piece after the first is not
      empty; then the offset is the text before the first separator followed by the separator,
      and the primary location is the text after it up to the first separator that follows, or
      to the end when none does. */
  lemma SplitAtFirstSeparator(original: string, nearThe: string)
    requires Strings.Contains(original, LocationSeparator)
    ensures var all := Strings.SplitAll(original, LocationSeparator);
            SplitLocation(original, nearThe).Some? <==> exists k :: 1 <= k < |all| && all[k] != ""
    ensures SplitLocation(original, nearThe).Some? ==>
              var i := Strings.IndexOf(original, LocationSeparator).value;
              var rest := original[i + |LocationSeparator|..];
              var loc := SplitLocation(original, nearThe).value;
              && loc.offset == original[..i] + LocationSeparator
              && loc.primary == match Strings.IndexOf(rest, LocationSeparator)
                                case None => rest
                                case Some(j) => rest[..j]
  {
    var all := Strings.SplitAll(original, LocationSeparator);
    Strings.SplitHasSecondPiece(original, LocationSeparator);
    var i := Strings.IndexOf(original, LocationSeparator).value;
    var rest := original[i + |LocationSeparator|..];
    assert all == [original[..i]] + Strings.SplitAll(rest, LocationSeparator);
    if SplitLocation(original, nearThe).Some? {
      var parts := Strings.Split(original, LocationSeparator);
      assert parts[0] == all[0] && parts[1] == all[1];
      assert all[1] == Strings.SplitAll(rest, LocationSeparator)[0];
      Strings.SplitAllHead(rest, LocationSeparator);
    }
  }

  /** With exactly one separator and some text after it, offset followed by primary location
      gives back the original text. */
  lemma SplitReassembles(original: string, nearThe: string)
    requires Strings.Contains(original, LocationSeparator)
    requires var i := Strings.IndexOf(original, LocationSeparator).value;
             var rest := original[i + |LocationSeparator|..];
             rest != "" && !Strings.Contains(rest, LocationSeparator)
    ensures SplitLocation(original, nearThe).Some?
    ensures var loc := SplitLocation(original, nearThe).value;
            loc.offset + loc.primary == original
  {
    var i := Strings.IndexOf(original, LocationSeparator).value;
    var rest := original[i + |LocationSeparator|..];
    Strings.SplitAllHead(rest, LocationSeparator);
    assert Strings.SplitAll(original, LocationSeparator) == [original[..i], rest];
    SplitAtFirstSeparator(original, nearThe);
    assert original == original[..i] + LocationSeparator + rest;
  }

  /** A location whose only separator ends it has no primary location: the split throws. */
  lemma SplitAtTrailingSeparatorFails(original: string, nearThe: string)
    requires Strings.IndexOf(original, LocationSeparator) == Some(|original| - |LocationSeparator|)
    ensures SplitLocation(original, nearThe).None?
  {
    Strings.SplitAtTrailingSeparator(original, LocationSeparator);
    SplitFailsOnOnePiece(original, nearThe);
  }

  /** A separator that splits off fewer than two pieces makes the split throw. */
  lemma SplitFailsOnOnePiece(original: string, nearThe: string)
    requires Strings.Contains(original, LocationSeparator)
    requires |Strings.Split(original, LocationSeparator)| < 2
    ensures SplitLocation(original, nearThe).None?
  {
  }

  // ---------------------------------------------------------------------------------------
  // Magnitude colour

  /** The colour resources of the magnitude circle. */
  datatype MagnitudeColor =
    | Magnitude1 | Magnitude2 | Magnitude3 | Magnitude4 | Magnitude5
    | Magnitude6 | Magnitude7 | Magnitude8 | Magnitude9 | Magnitude10Plus

  /** The colour `getMagnitudeColor` picks for `(int) Math.floor(magnitude)`. */
  function MagnitudeColorOf(magnitudeFloor: int): (color: MagnitudeColor)
    ensures Level(color) == if 0 <= magnitudeFloor <= 1 then 1
                            else if 2 <= magnitudeFloor <= 9 then magnitudeFloor
                            else 10
  {
    match magnitudeFloor
    case 0 => Magnitude1
    case 1 => Magnitude1
    case 2 => Magnitude2
    case 3 => Magnitude3
    case 4 => Magnitude4
    case 5 => Magnitude5
    case 6 => Magnitude6
    case 7 => Magnitude7
    case 8 => Magnitude8
    case 9 => Magnitude9
    case _ => Magnitude10Plus
  }

  /** The intensity a colour stands for, from 1 to 10. */
  function Level(color: MagnitudeColor): nat
  {
    match color
    case Magnitude1 => 1
    case Magnitude2 => 2
    case Magnitude3 => 3
    case Magnitude4 => 4
    case Magnitude5 => 5
    case Magnitude6 => 6
    case Magnitude7 => 7
    case Magnitude8 => 8
    case Magnitude9 => 9
    case Magnitude10Plus => 10
  }

  /** Floors 0 and 1 share the first colour, each floor from 2 to 9 has the colour of its own
      level, and every other floor, negative ones included, gets the 10+ colour. */
  lemma MagnitudeBuckets(magnitudeFloor: int)
    ensures 0 <= magnitudeFloor <= 1 ==> MagnitudeColorOf(magnitudeFloor) == Magnitude1
    ensures 2 <= magnitudeFloor <= 9 ==> Level(MagnitudeColorOf(magnitudeFloor)) == magnitudeFloor
    ensures magnitudeFloor < 0 || 10 <= magnitudeFloor ==> MagnitudeColorOf(magnitudeFloor) == Magnitude10Plus
  {
  }

  /** Over non-negative floors a stronger earthquake never gets a weaker colour. */
  lemma MagnitudeColorMonotone(weaker: int, stronger: int)
    requires 0 <= weaker <= stronger
    ensures Level(MagnitudeColorOf(weaker)) <= Level(MagnitudeColorOf(stronger))
  {
    MagnitudeBuckets(weaker);
    MagnitudeBuckets(stronger);
  }
}

=== FILE: java_int.dfy ===
/** The fixed-width integers of the Java runtime, stated over Dafny's unbounded `int`. */
module JavaInt {

  const IntMin: int := -0x8000_0000
  const IntMax: int := 0x7FFF_FFFF
  const LongMin: int := -0x8000_0000_0000_0000
  const LongMax: int := 0x7FFF_FFFF_FFFF_FFFF

  /** A Java `int` value. */
  type Int32 = i: int | IntMin <= i <= IntMax

  /** Two's-complement wrap-around of an arbitrary integer into the `int` range,
      which is what Java's `+`, `-` and `*` on `int` produce. */
  function Wrap32(x: int): (r: Int32)
    ensures IntMin <= x <= IntMax ==> r == x
    ensures (r - x) % 0x1_0000_0000 == 0
  {
    var m := (x - IntMin) % 0x1_0000_0000;
    m + IntMin
  }
}

/** The optional value used wherever the Java code returns `null` or throws on a missing value. */
module Optional {

  datatype Option<+T> = None | Some(value: T)
}

=== FILE: just_java.dfy ===
/** The coffee order of JustJava's main screen: a quantity that the plus and minus buttons keep
    within [1, 100], and the order price. */
module JustJava {
  import opened JavaInt

  const InitialQuantity: Int32 := 2
  const MinQuantity: Int32 := 1
  const MaxQuantity: Int32 := 100

  const CupPrice: int := 5
  const WhippedCreamPrice: int := 1
  const ChocolatePrice: int := 2

  predicate InRange(quantity: int)
  {
    MinQuantity <= quantity <= MaxQuantity
  }

  /** `increment`: at the maximum the quantity stays put (a toast says so); otherwise `int`
      addition of one. */
  function Increment(quantity: Int32): (r: Int32)
    ensures InRange(quantity) ==> InRange(r) && r - quantity == (if quantity < MaxQuantity then 1 else 0)
  {
    if quantity == MaxQuantity then quantity else Wrap32(quantity + 1)
  }

  /** `decrement`: at the minimum the quantity stays put; otherwise `int` subtraction of one. */
  function Decrement(quantity: Int32): (r: Int32)
    ensures InRange(quantity) ==> InRange(r) && quantity - r == (if quantity > MinQuantity then 1 else 0)
  {
    if quantity == MinQuantity then quantity else Wrap32(quantity - 1)
  }

  /** Within the range, plus adds exactly one below 100 and does nothing at 100. */
  lemma IncrementStep(quantity: Int32)
    requires InRange(quantity)
    ensures quantity == MaxQuantity ==> Increment(quantity) == quantity
    ensures quantity < MaxQuantity ==> Increment(quantity) == quantity + 1
    ensures InRange(Increment(quantity))
  {
  }

  /** Within the range, minus subtracts exactly one above 1 and does nothing at 1. */
  lemma DecrementStep(quantity: Int32)
    requires InRange(quantity)
    ensures quantity == MinQuantity ==> Decrement(quantity) == quantity
    ensures quantity > MinQuantity ==> Decrement(quantity) == quantity - 1
    ensures InRange(Decrement(quantity))
  {
  }

  /** Away from the bound it would stop at, each button undoes the other. */
  lemma IncrementDecrementInverse(quantity: Int32)
    requires InRange(quantity)
    ensures quantity < MaxQuantity ==> Decrement(Increment(quantity)) == quantity
    ensures quantity > MinQuantity ==> Increment(Decrement(quantity)) == quantity
  {
  }

  datatype Click = Plus | Minus

  function Press(quantity: Int32, click: Click): Int32
  {
    match click
    case Plus => Increment(quantity)
    case Minus => Decrement(quantity)
  }

  /** The quantity after the clicks, in order. */
  function PressAll(quantity: Int32, clicks: seq<Click>): Int32
    decreases |clicks|
  {
    if |clicks| == 0 then quantity else PressAll(Press(quantity, clicks[0]), clicks[1..])
  }

  /** No sequence of clicks leaves the range once inside it. */
  lemma {:induction false} ClicksStayInRange(quantity: Int32, clicks: seq<Click>)
    requires InRange(quantity)
    ensures InRange(PressAll(quantity, clicks))
    decreases |clicks|
  {
    if |clicks| > 0 {
      IncrementStep(quantity);
      DecrementStep(quantity);
      ClicksStayInRange(Press(quantity, clicks[0]), clicks[1..]);
    }
  }

  /** From the initial quantity 2, every reachable quantity is between 1 and 100. */
  lemma ReachableQuantitiesInRange(clicks: seq<Click>)
    ensures InRange(PressAll(InitialQuantity, clicks))
  {
    ClicksStayInRange(InitialQuantity, clicks);
  }

  /** `calculatePrice`: the cup price plus the chosen toppings, times the quantity, in `int`
      arithmetic. */
  function CalculatePrice(quantity: Int32, addWhippedCream: bool, addChocolate: bool): (price: Int32)
    ensures InRange(quantity) ==> price == UnitPrice(addWhippedCream, addChocolate) * quantity
  {
    var basePrice := CupPrice;
    var basePrice := if addWhippedCream then basePrice + WhippedCreamPrice else basePrice;
    var basePrice := if addChocolate then basePrice + ChocolatePrice else basePrice;
    Wrap32(basePrice * quantity)
  }

  /** The price of a cup with its toppings. */
  function UnitPrice(addWhippedCream: bool, addChocolate: bool): int
  {
    CupPrice + (if addWhippedCream then WhippedCreamPrice else 0) + (if addChocolate then ChocolatePrice else 0)
  }

  /** For every reachable quantity the price is the unit price times the quantity, with no
      wrap-around: positive and at most 800. */
  lemma PriceOfOrder(quantity: Int32, addWhippedCream: bool, addChocolate: bool)
    requires InRange(quantity)
    ensures CalculatePrice(quantity, addWhippedCream, addChocolate) ==
            UnitPrice(addWhippedCream, addChocolate) * quantity
    ensures 0 < CalculatePrice(quantity, addWhippedCream, addChocolate) <= 8 * MaxQuantity
  {
  }

  /** Adding whipped cream or chocolate always makes the order dearer. */
  lemma ToppingRaisesPrice(quantity: Int32, addWhippedCream: bool, addChocolate: bool)
    requires InRange(quantity)
    ensures CalculatePrice(quantity, false, addChocolate) < CalculatePrice(quantity, true, addChocolate)
    ensures CalculatePrice(quantity, addWhippedCream, false) < CalculatePrice(quantity, addWhippedCream, true)
  {
    PriceOfOrder(quantity, false, addChocolate);
    PriceOfOrder(quantity, true, addChocolate);
    PriceOfOrder(quantity, addWhippedCream, false);
    PriceOfOrder(quantity, addWhippedCream, true);
  }

  /** A larger quantity never costs less. */
  lemma PriceGrowsWithQuantity(quantity: Int32, more: Int32, addWhippedCream: bool, addChocolate: bool)
    requires InRange(quantity) && InRange(more) && quantity <= more
    ensures CalculatePrice(quantity, addWhippedCream, addChocolate) <= CalculatePrice(more, addWhippedCream, addChocolate)
  {
    PriceOfOrder(quantity, addWhippedCream, addChocolate);
    PriceOfOrder(more, addWhippedCream, addChocolate);
  }
}

=== FILE: pet_contract.dfy ===
/** The schema of the pets provider: authority, content URI, MIME types, table and column
    names, and the legal gender values. */
module PetContract {
  import Uris

  const ContentAuthority := "com.example.android.pets"

  /** `Uri.parse("content://" + CONTENT_AUTHORITY)`: no path segments. */
  const BaseContentUri := Uris.Uri("content", ContentAuthority, [])

  const PathPets := "pets"

  /** The URI of the whole pets collection. */
  const ContentUri := Uris.WithAppendedPath(BaseContentUri, PathPets)

  /** `ContentResolver.CURSOR_DIR_BASE_TYPE` and `ContentResolver.CURSOR_ITEM_BASE_TYPE`. */
  const CursorDirBaseType := "vnd.android.cursor.dir"
  const CursorItemBaseType := "vnd.android.cursor.item"

  /** MIME type of a list of pets and of a single pet. */
  const ContentListType := CursorDirBaseType + "/" + ContentAuthority + "/" + PathPets
  const ContentItemType := CursorItemBaseType + "/" + ContentAuthority + "/" + PathPets

  const TableName := "pets"
  const ColumnId := "_id"
  const ColumnName := "name"
  const ColumnBreed := "breed"
  const ColumnGender := "gender"
  const ColumnWeight := "weight"

  const GenderUnknown: int := 0
  const GenderMale: int := 1
  const GenderFemale: int := 2

  /** `isGenderValid`: the gender is one of the three constants. */
  function IsGenderValid(gender: int): (valid: bool)
    ensures valid <==> 0 <= gender <= 2
  {
    match gender
    case 2 => true   // GenderFemale
    case 1 => true   // GenderMale
    case 0 => true   // GenderUnknown
    case _ => false
  }

  /** The three gender constants are pairwise distinct and each of them is valid. */
  lemma GenderConstantsValid()
    ensures GenderUnknown != GenderMale && GenderMale != GenderFemale && GenderUnknown != GenderFemale
    ensures IsGenderValid(GenderUnknown) && IsGenderValid(GenderMale) && IsGenderValid(GenderFemale)
  {
  }

  /** The collection URI is `content://com.example.android.pets/pets`: the base URI with the
      single segment `pets`. */
  lemma ContentUriText()
    ensures Uris.ToString(BaseContentUri) == "content://" + ContentAuthority
    ensures ContentUri == Uris.Uri("content", ContentAuthority, [PathPets])
    ensures Uris.ToString(ContentUri) == "content://" + ContentAuthority + "/" + PathPets
  {
    assert Uris.PathText([]) == "";
    assert Uris.PathText([PathPets]) == "/" + PathPets by {
      assert [PathPets][1..] == [];
    }
  }

  /** Both MIME types end in `/com.example.android.pets/pets`; they differ in the
      directory/item prefix, so a list and a single pet never share a type. */
  lemma MimeTypesShareSuffix()
    ensures ContentListType == CursorDirBaseType + ("/" + ContentAuthority + "/" + PathPets)
    ensures ContentItemType == CursorItemBaseType + ("/" + ContentAuthority + "/" + PathPets)
    ensures ContentListType != ContentItemType
  {
    assert ContentListType[19] == 'd' && ContentItemType[19] == 'i';
  }
}

=== FILE: pet_provider.dfy ===
/** `PetProvider`: classifies content URIs, validates the values of writes, runs the
    statements against the pets table and sends change notifications. Every provider call is a
    transition of `State` (the table plus the log of notified URIs) that also yields a returned
    value or the exception the call throws. */
module PetProvider {
  import opened JavaInt
  import opened Optional
  import opened ContentValues
  import opened Uris
  import opened PetContract
  import opened PetStore
  import Decimal
  import Strings

  /** Matcher codes of the collection URI and of a single-pet URI. */
  const Pets: int := 100
  const PetId: int := 101

  /** The matcher after the two `addURI` calls of the static initializer. */
  const Routes: seq<Route> :=
    AddUri(AddUri([], ContentAuthority, PathPets, Pets), ContentAuthority, PathPets + "/#", PetId)

  /** `sUriMatcher.match(u)`: one of the two codes or no-match, and a code only for a path
      that starts with `pets` under the pets authority. */
  function MatchUri(u: Uri): (code: int)
    ensures code == Pets || code == PetId || code == NoMatch
    ensures code != NoMatch ==> u.authority == ContentAuthority && |u.segments| >= 1 && u.segments[0] == PathPets
  {
    RoutesRegistered();
    ClassifyRegistered(Routes, u);
    Match(Routes, u)
  }

  lemma SplitPetsPath()
    ensures Strings.Split("pets", "/") == ["pets"]
  {
    assert forall i :: 0 <= i < |"pets"| ==> "pets"[i] != '/' by {
      assert "pets" == ['p', 'e', 't', 's'];
    }
    Strings.SplitWithoutSeparator("pets", '/');
    assert "/" == ['/'];
  }

  lemma SplitPetIdPath()
    ensures Strings.Split("pets/#", "/") == ["pets", "#"]
  {
    assert "pets/#" == "pets" + ['/'] + "#";
    Strings.SplitAtOnlySeparator("pets", "#", '/');
  }

  /** The two registrations are `pets` and `pets/<number>` under the pets authority. */
  lemma RoutesRegistered()
    ensures Routes == [Route(ContentAuthority, [Exact(PathPets)], Pets),
                       Route(ContentAuthority, [Exact(PathPets), Number], PetId)]
  {
    SplitPetsPath();
    SplitPetIdPath();
    var t0 := Tokens(PathPets);
    assert |t0| == 1;
    assert t0[0] == Token("pets");
    assert t0 == [Exact(PathPets)];
    assert PathPets + "/#" == "pets/#";
    var t1 := Tokens(PathPets + "/#");
    assert |t1| == 2;
    assert t1[0] == Exact(PathPets);
    assert t1[1] == Token("#") == Number;
    assert t1 == [Exact(PathPets), Number];
  }

  /** The matcher recognises exactly `<authority>/pets` and `<authority>/pets/<digits>`;
      everything else is `NoMatch`. The scheme is not looked at. */
  lemma RouterClassifies(u: Uri)
    ensures MatchUri(u) == Pets <==> u.authority == ContentAuthority && u.segments == [PathPets]
    ensures MatchUri(u) == PetId <==>
              && u.authority == ContentAuthority && |u.segments| == 2
              && u.segments[0] == PathPets && Decimal.AllDigits(u.segments[1])
    ensures MatchUri(u) == Pets || MatchUri(u) == PetId || MatchUri(u) == NoMatch
  {
    RoutesRegistered();
    ClassifyRegistered(Routes, u);
  }

  /** The classification done by the two registrations, whatever table holds them. */
  lemma ClassifyRegistered(routes: seq<Route>, u: Uri)
    requires routes == [Route(ContentAuthority, [Exact(PathPets)], Pets),
                        Route(ContentAuthority, [Exact(PathPets), Number], PetId)]
    ensures Match(routes, u) == Pets <==> u.authority == ContentAuthority && u.segments == [PathPets]
    ensures Match(routes, u) == PetId <==>
              && u.authority == ContentAuthority && |u.segments| == 2
              && u.segments[0] == PathPets && Decimal.AllDigits(u.segments[1])
    ensures Match(routes, u) == Pets || Match(routes, u) == PetId || Match(routes, u) == NoMatch
  {
    var collection := u.authority == ContentAuthority && u.segments == [PathPets];
    var item := && u.authority == ContentAuthority && |u.segments| == 2
                && u.segments[0] == PathPets && Decimal.AllDigits(u.segments[1]);
    assert RouteMatches(routes[0], u) <==> collection by {
      if |u.segments| == 1 && u.segments[0] == PathPets {
        assert u.segments == [PathPets];
      }
    }
    assert RouteMatches(routes[1], u) <==> item by {
      if |u.segments| == 2 {
        assert TokenMatches(routes[1].tokens[0], u.segments[0]) <==> u.segments[0] == PathPets;
        assert TokenMatches(routes[1].tokens[1], u.segments[1]) <==> Decimal.AllDigits(u.segments[1]);
      }
    }
    assert !(collection && item);
  }

  // ---------------------------------------------------------------------------------------
  // Calls, results and state

  /** Why an `IllegalArgumentException` is thrown. */
  datatype Reason = UnsupportedUri | NameRequired | ValidGenderRequired | ValidWeightRequired

  /** The exceptions a provider call ends with: `IllegalArgumentException` (unknown URI or
      rejected values), `IllegalStateException` (`getType` of an unknown URI), and the
      `NumberFormatException` of `ContentUris.parseId`. */
  datatype Exception = IllegalArgument(reason: Reason) | IllegalState | NumberFormat

  datatype Outcome<+T> = Returned(value: T) | Threw(exception: Exception)

  /** The table together with the allocator invariant it always satisfies. */
  type PetTable = t: Table | IdsAllocated(t) witness Table(map[], 1)

  /** The pets table and every URI passed to `notifyChange`, oldest first. */
  datatype State = State(table: PetTable, notified: seq<Uri>)

  datatype Reply<+T> = Reply(state: State, outcome: Outcome<T>)

  /** A query result: the selected rows, and the URI set with `setNotificationUri`. */
  datatype Cursor = Cursor(rows: map<int, Row>, notificationUri: Uri)

  /** An empty table and no notifications yet. */
  const Initial: State := State(Table(map[], 1), [])

  // ---------------------------------------------------------------------------------------
  // Selection

  /** The WHERE part a query, update or delete on `u` runs with: the caller's selection for the
      collection URI, and `_id=?` bound to the URI's id for a single-pet URI. */
  function EffectiveWhere(u: Uri, sel: Selection): (w: Outcome<Where>)
    ensures MatchUri(u) == Pets ==> w == Returned(Caller(sel))
    ensures MatchUri(u) == PetId && ParseId(u).Some? ==> w == Returned(IdEquals(ParseId(u).value))
    ensures MatchUri(u) == PetId && ParseId(u).None? ==> w == Threw(NumberFormat)
    ensures MatchUri(u) != Pets && MatchUri(u) != PetId ==> w == Threw(IllegalArgument(UnsupportedUri))
  {
    var code := MatchUri(u);
    if code == Pets then Returned(Caller(sel))
    else if code == PetId then
      match ParseId(u)
      case None => Threw(NumberFormat)
      case Some(id) => Returned(IdEquals(id))
    else Threw(IllegalArgument(UnsupportedUri))
  }

  /** On a single-pet URI the caller's selection plays no part: any two selections give the
      same WHERE part, and it selects the one row whose id the URI carries. */
  lemma ItemIgnoresSelection(u: Uri, sel1: Selection, sel2: Selection, rows: map<int, Row>, interp: Interp)
    requires MatchUri(u) == PetId
    ensures EffectiveWhere(u, sel1) == EffectiveWhere(u, sel2)
    ensures EffectiveWhere(u, sel1).Returned? ==>
              Matching(rows, EffectiveWhere(u, sel1).value, interp) ==
              (var id := ParseId(u).value; if id in rows then {id} else {})
  {
    if EffectiveWhere(u, sel1).Returned? {
      MatchingId(rows, ParseId(u).value, interp);
    }
  }

  // ---------------------------------------------------------------------------------------
  // query

  /** `query(uri, projection, selection, selectionArgs, sortOrder)`; the projection and sort
      order are handed to the database unchanged and are not modelled. */
  function Query(s: State, u: Uri, sel: Selection, interp: Interp): (r: Reply<Cursor>)
    ensures r.state == s
    ensures r.outcome.Threw? <==> EffectiveWhere(u, sel).Threw?
    ensures r.outcome.Threw? ==> r.outcome.exception == EffectiveWhere(u, sel).exception
    ensures r.outcome.Returned? ==> r.outcome.value.notificationUri == u
    ensures r.outcome.Returned? ==>
              && r.outcome.value.rows.Keys == Matching(s.table.rows, EffectiveWhere(u, sel).value, interp)
              && forall k :: k in r.outcome.value.rows ==> r.outcome.value.rows[k] == s.table.rows[k]
  {
    match EffectiveWhere(u, sel)
    case Threw(e) => Reply(s, Threw(e))
    case Returned(w) => Reply(s, Returned(Cursor(SelectRows(s.table.rows, w, interp), u)))
  }

  /** A query on a single-pet URI answers that pet's row and nothing else, whatever the
      caller's selection. */
  lemma QueryItem(s: State, u: Uri, sel: Selection, interp: Interp)
    requires MatchUri(u) == PetId && ParseId(u).Some?
    ensures var id := ParseId(u).value;
            Query(s, u, sel, interp).outcome ==
            Returned(Cursor(if id in s.table.rows then map[id := s.table.rows[id]] else map[], u))
  {
    var id := ParseId(u).value;
    assert EffectiveWhere(u, sel) == Returned(IdEquals(id));
    SelectId(s.table.rows, id, interp);
  }

  // ---------------------------------------------------------------------------------------
  // Validation

  /** What the write path protects: a stored pet has a name, a valid gender, and a weight that
      is absent, unreadable as a number, or not negative. */
  predicate PetRowValid(row: Row)
  {
    && GetAsString(row, ColumnName).Some?
    && GetAsInteger(row, ColumnGender).Some? && IsGenderValid(GetAsInteger(row, ColumnGender).value)
    && !(GetAsInteger(row, ColumnWeight).Some? && GetAsInteger(row, ColumnWeight).value < 0)
  }

  /** The checks of `insertPet`, in their order; `None` when the values may be stored. */
  function CheckInsert(values: Values): (r: Option<Reason>)
    ensures r.None? <==> PetRowValid(values)
    ensures r != Some(UnsupportedUri)
  {
    var gender := GetAsInteger(values, ColumnGender);
    var weight := GetAsInteger(values, ColumnWeight);
    if GetAsString(values, ColumnName).None? then Some(NameRequired)
    else if gender.None? || !IsGenderValid(gender.value) then Some(ValidGenderRequired)
    else if weight.Some? && weight.value < 0 then Some(ValidWeightRequired)
    else None
  }

  /** The checks of `updatePet`: the same three, each only when its key is present. */
  function CheckUpdate(values: Values): (r: Option<Reason>)
    ensures r == Some(NameRequired) ==> ColumnName in values
    ensures r == Some(ValidGenderRequired) ==> ColumnGender in values
    ensures r == Some(ValidWeightRequired) ==> ColumnWeight in values
    ensures r != Some(UnsupportedUri)
  {
    var gender := GetAsInteger(values, ColumnGender);
    var weight := GetAsInteger(values, ColumnWeight);
    if ColumnName in values && GetAsString(values, ColumnName).None? then Some(NameRequired)
    else if ColumnGender in values && (gender.None? || !IsGenderValid(gender.value)) then Some(ValidGenderRequired)
    else if ColumnWeight in values && weight.Some? && weight.value < 0 then Some(ValidWeightRequired)
    else None
  }

  /** Insert validation accepts exactly the values that make a valid pet row. The name check
      fails only for a missing or `null` name: an empty name is accepted. */
  lemma CheckInsertExact(values: Values)
    ensures CheckInsert(values).None? <==> PetRowValid(values)
    ensures CheckInsert(values) == Some(NameRequired) <==>
              ColumnName !in values || values[ColumnName].Null?
    ensures ColumnName in values && values[ColumnName] == Text("") ==> CheckInsert(values) != Some(NameRequired)
  {
  }

  /** Neither insert nor update looks at the breed: any breed, `null` included, gives the same
      verdict as leaving it out. */
  lemma BreedNeverChecked(values: Values, breed: Value)
    ensures CheckInsert(values[ColumnBreed := breed]) == CheckInsert(values - {ColumnBreed})
    ensures CheckUpdate(values[ColumnBreed := breed]) == CheckUpdate(values - {ColumnBreed})
  {
    var with := values[ColumnBreed := breed];
    var without := values - {ColumnBreed};
    assert GetAsString(with, ColumnName) == GetAsString(without, ColumnName);
    assert GetAsInteger(with, ColumnGender) == GetAsInteger(without, ColumnGender);
    assert GetAsInteger(with, ColumnWeight) == GetAsInteger(without, ColumnWeight);
  }

  /** Update validation accepts exactly the values that keep a valid row valid when written
      over it: a present name must be non-null, a present gender readable and valid, a present
      weight not negative (it may be `null`). */
  lemma CheckUpdateExact(row: Row, values: Values)
    requires PetRowValid(row)
    ensures CheckUpdate(values).None? <==> PetRowValid(row + values)
  {
    var merged := row + values;
    assert GetAsString(merged, ColumnName) ==
           if ColumnName in values then GetAsString(values, ColumnName) else GetAsString(row, ColumnName);
    assert GetAsInteger(merged, ColumnGender) ==
           if ColumnGender in values then GetAsInteger(values, ColumnGender) else GetAsInteger(row, ColumnGender);
    assert GetAsInteger(merged, ColumnWeight) ==
           if ColumnWeight in values then GetAsInteger(values, ColumnWeight) else GetAsInteger(row, ColumnWeight);
  }

  // ---------------------------------------------------------------------------------------
  // insert

  /** `insert(uri, values)`. `engineFails` stands for the database answering -1. */
  function Insert(s: State, u: Uri, values: Values, engineFails: bool): (r: Reply<Option<Uri>>)
    ensures MatchUri(u) != Pets ==> r == Reply(s, Threw(IllegalArgument(UnsupportedUri)))
    ensures r.outcome.Threw? || r.outcome == Returned(None) ==> r.state == s
    ensures r.outcome.Threw? <==> MatchUri(u) != Pets || CheckInsert(values).Some?
    ensures r.outcome == Returned(None) <==> MatchUri(u) == Pets && CheckInsert(values).None? && engineFails
  {
    if MatchUri(u) != Pets then Reply(s, Threw(IllegalArgument(UnsupportedUri)))
    else InsertPet(s, u, values, engineFails)
  }

  /** `insertPet`: validate, store, notify the collection URI, return the new row's URI. */
  function InsertPet(s: State, u: Uri, values: Values, engineFails: bool): (r: Reply<Option<Uri>>)
    ensures CheckInsert(values).Some? ==> r == Reply(s, Threw(IllegalArgument(CheckInsert(values).value)))
    ensures CheckInsert(values).None? && engineFails ==> r == Reply(s, Returned(None))
    ensures CheckInsert(values).None? && !engineFails ==>
              exists id :: && id !in s.table.rows && id >= 1
                           && r.state.table.rows == s.table.rows[id := values]
                           && r.state.notified == s.notified + [u]
                           && r.outcome == Returned(Some(WithAppendedId(u, id)))
  {
    match CheckInsert(values)
    case Some(reason) => Reply(s, Threw(IllegalArgument(reason)))
    case None =>
      if engineFails then Reply(s, Returned(None))
      else
        var (t, id) := InsertRow(s.table, values);
        Reply(State(t, s.notified + [u]), Returned(Some(WithAppendedId(u, id))))
  }

  /** The URI `insert` returns for a new id is routed back to that id: appending a positive id
      to the collection URI gives a single-pet URI whose `parseId` is the id. */
  lemma AppendedIdRoutesToItem(u: Uri, id: int)
    requires MatchUri(u) == Pets && 1 <= id <= LongMax
    ensures MatchUri(WithAppendedId(u, id)) == PetId
    ensures ParseId(WithAppendedId(u, id)) == Some(id)
  {
    RouterClassifies(u);
    var item := WithAppendedId(u, id);
    assert item.segments == [PathPets, Decimal.SignedToString(id)];
    RouterClassifies(item);
    ParseIdWithAppendedId(u, id);
  }

  /** A successful insert adds exactly one row, notifies the collection URI once, and returns
      a URI that the provider routes to the new row: querying it answers exactly that row. */
  lemma InsertedUriAddressesRow(s: State, u: Uri, values: Values, sel: Selection, interp: Interp)
    requires MatchUri(u) == Pets && CheckInsert(values).None?
    requires s.table.nextId <= LongMax
    ensures var r := Insert(s, u, values, false);
            && r.outcome.Returned? && r.outcome.value.Some?
            && |r.state.table.rows| == |s.table.rows| + 1
            && r.state.notified == s.notified + [u]
            && var item := r.outcome.value.value;
               && MatchUri(item) == PetId
               && ParseId(item).Some? && ParseId(item).value !in s.table.rows
               && Query(r.state, item, sel, interp).outcome ==
                  Returned(Cursor(map[ParseId(item).value := values], item))
  {
    var (t, id) := InsertRow(s.table, values);
    var s' := State(t, s.notified + [u]);
    var item := WithAppendedId(u, id);
    assert Insert(s, u, values, false) == Reply(s', Returned(Some(item)));
    AppendedIdRoutesToItem(u, id);
    QueryItem(s', item, sel, interp);
    assert t.rows[id] == values;
  }

  // ---------------------------------------------------------------------------------------
  // update

  /** `update(uri, values, selection, selectionArgs)`. */
  function Update(s: State, u: Uri, values: Values, sel: Selection, interp: Interp): (r: Reply<int>)
    ensures r.outcome.Threw? ==> r.state == s
    ensures r.outcome.Threw? <==> EffectiveWhere(u, sel).Threw? || (|values| > 0 && CheckUpdate(values).Some?)
    ensures EffectiveWhere(u, sel).Returned? && |values| == 0 ==> r == Reply(s, Returned(0))
    ensures r.state.table.rows.Keys == s.table.rows.Keys
    ensures r.outcome.Returned? && |values| > 0 ==>
              var w := EffectiveWhere(u, sel).value;
              && r.outcome.value == |Matching(s.table.rows, w, interp)|
              && forall k :: k in s.table.rows ==>
                   r.state.table.rows[k] ==
                   if Selects(w, interp, k, s.table.rows[k]) then s.table.rows[k] + values else s.table.rows[k]
    ensures r.outcome.Returned? ==>
              r.state.notified == if r.outcome.value != 0 then s.notified + [u] else s.notified
  {
    match EffectiveWhere(u, sel)
    case Threw(e) => Reply(s, Threw(e))
    case Returned(w) => UpdatePet(s, u, values, w, interp)
  }

  /** `updatePet`: nothing to write answers 0 at once; otherwise validate, write every selected
      row, and notify `u` only when some row was written. */
  function UpdatePet(s: State, u: Uri, values: Values, w: Where, interp: Interp): (r: Reply<int>)
    ensures |values| == 0 ==> r == Reply(s, Returned(0))
    ensures |values| > 0 && CheckUpdate(values).Some? ==>
              r == Reply(s, Threw(IllegalArgument(CheckUpdate(values).value)))
    ensures |values| > 0 && CheckUpdate(values).None? ==>
              && r.outcome == Returned(|Matching(s.table.rows, w, interp)|)
              && r.state.table.nextId == s.table.nextId
              && r.state.table.rows.Keys == s.table.rows.Keys
              && (forall k :: k in s.table.rows ==>
                    r.state.table.rows[k] ==
                    if Selects(w, interp, k, s.table.rows[k]) then s.table.rows[k] + values else s.table.rows[k])
              && r.state.notified == if r.outcome.value != 0 then s.notified + [u] else s.notified
  {
    if |values| == 0 then Reply(s, Returned(0))
    else
      match CheckUpdate(values)
      case Some(reason) => Reply(s, Threw(IllegalArgument(reason)))
      case None =>
        var (rows, n) := UpdateRows(s.table.rows, w, values, interp);
        var t: PetTable := Table(rows, s.table.nextId);
        Reply(State(t, if n != 0 then s.notified + [u] else s.notified), Returned(n))
  }

  /** An update of a single-pet URI writes that pet's row alone, whatever the caller's
      selection, and answers 1 when the pet is stored and 0 otherwise. */
  lemma UpdateItem(s: State, u: Uri, values: Values, sel: Selection, interp: Interp)
    requires MatchUri(u) == PetId && ParseId(u).Some?
    requires |values| > 0 && CheckUpdate(values).None?
    ensures var id := ParseId(u).value;
            var r := Update(s, u, values, sel, interp);
            && r.outcome == Returned(if id in s.table.rows then 1 else 0)
            && r.state.table.rows.Keys == s.table.rows.Keys
            && forall k :: k in s.table.rows ==>
                 r.state.table.rows[k] == if k == id then s.table.rows[k] + values else s.table.rows[k]
  {
    MatchingId(s.table.rows, ParseId(u).value, interp);
  }

  // ---------------------------------------------------------------------------------------
  // delete

  /** `delete(uri, selection, selectionArgs)`. The collection URI is notified after every
      delete, even one that removed nothing; a single-pet URI only when its row was removed. */
  function Delete(s: State, u: Uri, sel: Selection, interp: Interp): (r: Reply<int>)
    ensures r.outcome.Threw? <==> EffectiveWhere(u, sel).Threw?
    ensures r.outcome.Threw? ==> r.state == s
    ensures r.outcome.Returned? ==>
              && r.state.table.rows.Keys == s.table.rows.Keys - Matching(s.table.rows, EffectiveWhere(u, sel).value, interp)
              && (forall k :: k in r.state.table.rows ==> r.state.table.rows[k] == s.table.rows[k])
              && r.outcome.value == |s.table.rows| - |r.state.table.rows|
    ensures r.outcome.Returned? && MatchUri(u) == Pets ==> r.state.notified == s.notified + [u]
    ensures r.outcome.Returned? && MatchUri(u) == PetId ==>
              r.state.notified == if r.outcome.value != 0 then s.notified + [u] else s.notified
  {
    match EffectiveWhere(u, sel)
    case Threw(e) => Reply(s, Threw(e))
    case Returned(w) =>
      var (rows, n) := DeleteRows(s.table.rows, w, interp);
      var t: PetTable := Table(rows, s.table.nextId);
      var notify := MatchUri(u) == Pets || n != 0;
      Reply(State(t, if notify then s.notified + [u] else s.notified), Returned(n))
  }

  /** Deleting a single-pet URI whose id is not stored removes nothing, answers 0 and sends
      no notification. */
  lemma DeleteMissingItem(s: State, u: Uri, sel: Selection, interp: Interp)
    requires MatchUri(u) == PetId && ParseId(u).Some? && ParseId(u).value !in s.table.rows
    ensures Delete(s, u, sel, interp) == Reply(s, Returned(0))
  {
    var id := ParseId(u).value;
    assert EffectiveWhere(u, sel) == Returned(IdEquals(id));
    MatchingId(s.table.rows, id, interp);
    var (rows, n) := DeleteRows(s.table.rows, IdEquals(id), interp);
    assert rows == s.table.rows && n == 0;
    assert Table(rows, s.table.nextId) == s.table;
  }

  // ---------------------------------------------------------------------------------------
  // getType

  /** `getType(uri)`: the list MIME type for the collection, the item type for one pet. */
  function GetType(u: Uri): (r: Outcome<string>)
    ensures r.Threw? <==> MatchUri(u) != Pets && MatchUri(u) != PetId
    ensures r.Threw? ==> r.exception == IllegalState
    ensures r.Returned? ==> (r.value == ContentListType <==> MatchUri(u) == Pets)
    ensures r.Returned? ==> (r.value == ContentItemType <==> MatchUri(u) == PetId)
  {
    MimeTypesShareSuffix();
    var code := MatchUri(u);
    if code == Pets then Returned(ContentListType)
    else if code == PetId then Returned(ContentItemType)
    else Threw(IllegalState)
  }

  /** A URI the matcher does not know is refused by every entry point, before the table or
      the log is touched: the four data calls throw `IllegalArgumentException` and `getType`
      throws `IllegalStateException`. */
  lemma UnknownUriRejected(s: State, u: Uri, values: Values, sel: Selection, interp: Interp, engineFails: bool)
    requires MatchUri(u) != Pets && MatchUri(u) != PetId
    ensures Query(s, u, sel, interp) == Reply(s, Threw(IllegalArgument(UnsupportedUri)))
    ensures Insert(s, u, values, engineFails) == Reply(s, Threw(IllegalArgument(UnsupportedUri)))
    ensures Update(s, u, values, sel, interp) == Reply(s, Threw(IllegalArgument(UnsupportedUri)))
    ensures Delete(s, u, sel, interp) == Reply(s, Threw(IllegalArgument(UnsupportedUri)))
    ensures GetType(u) == Threw(IllegalState)
  {
  }

  // ---------------------------------------------------------------------------------------
  // Sequences of calls

  /** One call a client makes through the content resolver. */
  datatype Call =
    | QueryCall(uri: Uri, selection: Selection, interp: Interp)
    | InsertCall(uri: Uri, values: Values, engineFails: bool)
    | UpdateCall(uri: Uri, values: Values, selection: Selection, interp: Interp)
    | DeleteCall(uri: Uri, selection: Selection, interp: Interp)

  /** The state after one call, and the log grows by at most the call's own URI. */
  function Step(s: State, c: Call): (s': State)
    ensures s'.notified == s.notified || s'.notified == s.notified + [c.uri]
  {
    match c
    case QueryCall(u, sel, interp) => Query(s, u, sel, interp).state
    case InsertCall(u, values, fails) => Insert(s, u, values, fails).state
    case UpdateCall(u, values, sel, interp) => Update(s, u, values, sel, interp).state
    case DeleteCall(u, sel, interp) => Delete(s, u, sel, interp).state
  }

  function Run(s: State, calls: seq<Call>): State
    decreases |calls|
  {
    if |calls| == 0 then s else Run(Step(s, calls[0]), calls[1..])
  }

  /** Every stored pet satisfies the write-path checks. */
  predicate Valid(s: State)
  {
    forall k :: k in s.table.rows ==> PetRowValid(s.table.rows[k])
  }

  /** No call stores a row the checks would refuse. */
  lemma StepPreservesValid(s: State, c: Call)
    requires Valid(s)
    ensures Valid(Step(s, c))
  {
    match c
    case QueryCall(u, sel, interp) =>
    case InsertCall(u, values, fails) =>
      if MatchUri(u) == Pets {
        CheckInsertExact(values);
      }
    case UpdateCall(u, values, sel, interp) =>
      var r := Update(s, u, values, sel, interp);
      if r.outcome.Returned? && |values| > 0 {
        forall k | k in r.state.table.rows
          ensures PetRowValid(r.state.table.rows[k])
        {
          CheckUpdateExact(s.table.rows[k], values);
        }
      }
    case DeleteCall(u, sel, interp) =>
  }

  /** Starting from any valid state, every sequence of calls leaves only valid pets in the
      table. */
  lemma {:induction false} RunPreservesValid(s: State, calls: seq<Call>)
    requires Valid(s)
    ensures Valid(Run(s, calls))
    ensures s.notified <= Run(s, calls).notified
    decreases |calls|
  {
    if |calls| > 0 {
      StepPreservesValid(s, calls[0]);
      RunPreservesValid(Step(s, calls[0]), calls[1..]);
    }
  }

  /** From the provider's first state, an empty table, every reachable table holds only valid
      pets. */
  lemma ReachableTablesValid(calls: seq<Call>)
    ensures Valid(Run(Initial, calls))
  {
    RunPreservesValid(Initial, calls);
  }
}

=== FILE: pet_store.dfy ===
/** The pets table as the provider sees it through the database: rows keyed by `_id`, an id
    allocator, and the four statement shapes the provider issues (select, insert, update,
    delete). SQL text is not interpreted: a caller's selection is decided by an opaque
    predicate, and only the provider's own `_id=?` selection has a fixed meaning. */
module PetStore {
  import opened Optional
  import opened ContentValues

  /** A stored row: the column values it was inserted or last updated with. */
  type Row = Values

  /** A caller's `selection` string (absent when `null`) and its `selectionArgs`. */
  datatype Selection = Selection(clause: Option<string>, args: seq<string>)

  /** The WHERE part of a statement: the caller's selection as given, or `_id=?` bound to `id`. */
  datatype Where = Caller(selection: Selection) | IdEquals(id: int)

  /** How the database evaluates a caller's selection on the row with a given id. */
  type Interp = (Selection, int, Row) -> bool

  predicate Selects(w: Where, interp: Interp, key: int, row: Row)
  {
    match w
    case Caller(sel) => interp(sel, key, row)
    case IdEquals(id) => key == id
  }

  /** The table and the next id its allocator will hand out. */
  datatype Table = Table(rows: map<int, Row>, nextId: int)

  /** Every stored id is positive and below the allocator. */
  predicate IdsAllocated(t: Table)
  {
    forall k :: k in t.rows ==> 1 <= k < t.nextId
  }

  /** The ids of the rows a statement with this WHERE part affects. */
  function Matching(rows: map<int, Row>, w: Where, interp: Interp): (keys: set<int>)
    ensures keys <= rows.Keys
    ensures forall k :: k in rows ==> (k in keys <==> Selects(w, interp, k, rows[k]))
  {
    set k | k in rows && Selects(w, interp, k, rows[k])
  }

  /** `_id=?` selects the row with that id if there is one, and nothing else. */
  lemma MatchingId(rows: map<int, Row>, id: int, interp: Interp)
    ensures Matching(rows, IdEquals(id), interp) == if id in rows then {id} else {}
  {
  }

  /** SELECT: the selected rows, unchanged. */
  function SelectRows(rows: map<int, Row>, w: Where, interp: Interp): (selected: map<int, Row>)
    ensures selected.Keys == Matching(rows, w, interp)
    ensures forall k :: k in selected ==> selected[k] == rows[k]
  {
    map k | k in Matching(rows, w, interp) :: rows[k]
  }

  /** SELECT with `_id=?` answers the row with that id if there is one, and nothing else. */
  lemma SelectId(rows: map<int, Row>, id: int, interp: Interp)
    ensures SelectRows(rows, IdEquals(id), interp) == if id in rows then map[id := rows[id]] else map[]
  {
    MatchingId(rows, id, interp);
    var selected := SelectRows(rows, IdEquals(id), interp);
    if id in rows {
      assert selected == map[id := rows[id]];
    } else {
      assert selected == map[];
    }
  }

  /** INSERT: stores `row` under the allocator's next id and advances the allocator. */
  function InsertRow(t: Table, row: Row): (r: (Table, int))
    requires IdsAllocated(t)
    ensures r.1 !in t.rows && r.1 >= 1
    ensures r.0.rows == t.rows[r.1 := row] && IdsAllocated(r.0)
    ensures |r.0.rows| == |t.rows| + 1
  {
    var id := if t.nextId >= 1 then t.nextId else 1;
    (Table(t.rows[id := row], id + 1), id)
  }

  /** UPDATE: overwrites the given columns of every selected row; answers the row count. */
  function UpdateRows(rows: map<int, Row>, w: Where, values: Values, interp: Interp): (r: (map<int, Row>, nat))
    ensures r.0.Keys == rows.Keys
    ensures forall k :: k in rows && !Selects(w, interp, k, rows[k]) ==> r.0[k] == rows[k]
    ensures forall k :: k in rows && Selects(w, interp, k, rows[k]) ==> r.0[k] == rows[k] + values
    ensures r.1 == |Matching(rows, w, interp)|
  {
    (map k | k in rows :: if Selects(w, interp, k, rows[k]) then rows[k] + values else rows[k],
     |Matching(rows, w, interp)|)
  }

  /** DELETE: removes every selected row; answers the row count. */
  function DeleteRows(rows: map<int, Row>, w: Where, interp: Interp): (r: (map<int, Row>, nat))
    ensures r.0.Keys == rows.Keys - Matching(rows, w, interp)
    ensures forall k :: k in r.0 ==> r.0[k] == rows[k]
    ensures r.1 == |rows| - |r.0|
  {
    var gone := Matching(rows, w, interp);
    var kept := rows - gone;
    assert kept.Keys == rows.Keys - gone;
    RemovedCount(rows.Keys, gone);
    (kept, |gone|)
  }

  /** Taking a subset away leaves as many elements as the subset did not have. */
  lemma RemovedCount<T>(all: set<T>, gone: set<T>)
    requires gone <= all
    ensures |all - gone| == |all| - |gone|
  {
    assert all == (all - gone) + gone;
    assert (all - gone) !! gone;
  }
}

=== FILE: strings.dfy ===
/** Searching and splitting text by a literal separator: `String.contains`, the splitting of
    `String.split` with limit 0 (a regular expression without meta-characters behaves as a
    literal), and joining the pieces back together. */
module Strings {
  import opened Optional

  /** `sep` occurs in `s` starting at index `i`. */
  predicate OccursAt(s: string, sep: string, i: nat) {
    i + |sep| <= |s| && s[i..i + |sep|] == sep
  }

  /** The index of the first occurrence of `sep` in `s`, if any (`String.indexOf`). */
  function IndexOf(s: string, sep: string): (r: Option<nat>)
    ensures r.Some? ==> OccursAt(s, sep, r.value)
    ensures r.Some? ==> forall j: nat :: j < r.value ==> !OccursAt(s, sep, j)
    ensures r.None? ==> forall j: nat :: !OccursAt(s, sep, j)
    decreases |s|
  {
    if |s| < |sep| then None
    else if s[..|sep|] == sep then Some(0)
    else
      match IndexOf(s[1..], sep)
      case None =>
        assert forall j: nat :: OccursAt(s, sep, j) ==> j == 0 || OccursAt(s[1..], sep, j - 1);
        None
      case Some(i) =>
        assert forall j: nat :: 0 < j < i + 1 && OccursAt(s, sep, j) ==> OccursAt(s[1..], sep, j - 1);
        Some(i + 1)
  }

  /** `String.contains`. */
  predicate Contains(s: string, sep: string) {
    IndexOf(s, sep).Some?
  }

  /** Joins pieces with `sep` between consecutive ones. */
  function Join(parts: seq<string>, sep: string): string
  {
    if |parts| == 0 then ""
    else if |parts| == 1 then parts[0]
    else parts[0] + sep + Join(parts[1..], sep)
  }

  /** A text that ends before the first occurrence of `sep` in `s` does not contain `sep`. */
  lemma PrefixBeforeFirstOccurrence(s: string, sep: string, i: nat)
    requires |sep| > 0 && i <= |s|
    requires forall j: nat :: j < i ==> !OccursAt(s, sep, j)
    ensures !Contains(s[..i], sep)
  {
    var p := s[..i];
    if IndexOf(p, sep).Some? {
      var j := IndexOf(p, sep).value;
      assert p[j..j + |sep|] == s[j..j + |sep|];
      assert j < i && OccursAt(s, sep, j);
    }
  }

  /** The first occurrence of `sep` is the leftmost one: no occurrence ends inside it, so the
      text before it followed by all but the last character of `sep` holds no occurrence. */
  lemma FirstSeparatorIsLeftmost(s: string, sep: string, i: nat)
    requires |sep| > 0 && IndexOf(s, sep) == Some(i)
    ensures !Contains(s[..i] + sep[..|sep| - 1], sep)
  {
    var q := s[..i + |sep| - 1];
    assert s[..i] + sep[..|sep| - 1] == q;
    if IndexOf(q, sep).Some? {
      var j := IndexOf(q, sep).value;
      assert q[j..j + |sep|] == s[j..j + |sep|];
      assert j < i && OccursAt(s, sep, j);
    }
  }

  /** Every piece of `s` between occurrences of the non-empty `sep`, leading and trailing
      empty pieces included. Each cut is made at the leftmost occurrence that starts at or after
      the end of the previous piece: a piece followed by all but the last character of `sep`
      still holds no occurrence, which fixes the split even for a self-overlapping `sep`. */
  function SplitAll(s: string, sep: string): (parts: seq<string>)
    requires |sep| > 0
    ensures |parts| >= 1
    ensures forall k :: 0 <= k < |parts| ==> !Contains(parts[k], sep)
    ensures forall k :: 0 <= k < |parts| - 1 ==> !Contains(parts[k] + sep[..|sep| - 1], sep)
    ensures Join(parts, sep) == s
    decreases |s|
  {
    match IndexOf(s, sep)
    case None => [s]
    case Some(i) =>
      PrefixBeforeFirstOccurrence(s, sep, i);
      FirstSeparatorIsLeftmost(s, sep, i);
      var rest := SplitAll(s[i + |sep|..], sep);
      assert s == s[..i] + sep + s[i + |sep|..];
      [s[..i]] + rest
  }

  /** The first piece of a split is the text before the first occurrence. */
  lemma SplitAllHead(s: string, sep: string)
    requires |sep| > 0
    ensures IndexOf(s, sep).None? ==> SplitAll(s, sep) == [s]
    ensures IndexOf(s, sep).Some? ==> SplitAll(s, sep)[0] == s[..IndexOf(s, sep).value]
  {
  }

  /** Drops the empty strings at the end of `parts`, as `String.split` with limit 0 does. */
  function DropTrailingEmpty(parts: seq<string>): (r: seq<string>)
    ensures r <= parts
    ensures forall j :: |r| <= j < |parts| ==> parts[j] == ""
    ensures |r| > 0 ==> r[|r| - 1] != ""
  {
    if |parts| == 0 then []
    else if parts[|parts| - 1] == "" then DropTrailingEmpty(parts[..|parts| - 1])
    else parts
  }

  /** `s.split(sep)` for a separator without regular-expression meta-characters: the input
      itself when `sep` does not occur, otherwise the pieces without trailing empty ones. */
  function Split(s: string, sep: string): (parts: seq<string>)
    requires |sep| > 0
    ensures !Contains(s, sep) ==> parts == [s]
    ensures Contains(s, sep) ==> parts <= SplitAll(s, sep)
    ensures Contains(s, sep) ==>
              forall j :: |parts| <= j < |SplitAll(s, sep)| ==> SplitAll(s, sep)[j] == ""
    ensures |parts| > 0 ==> parts[|parts| - 1] != "" || parts == [s]
  {
    if !Contains(s, sep) then [s] else DropTrailingEmpty(SplitAll(s, sep))
  }

  /** When `sep` occurs, the split has at least two pieces exactly when some piece after the
      first is non-empty. */
  lemma SplitHasSecondPiece(s: string, sep: string)
    requires |sep| > 0 && Contains(s, sep)
    ensures |Split(s, sep)| >= 2 <==>
            exists k :: 1 <= k < |SplitAll(s, sep)| && SplitAll(s, sep)[k] != ""
  {
    var all := SplitAll(s, sep);
    var parts := Split(s, sep);
    assert parts == DropTrailingEmpty(all);
    if |parts| >= 2 {
      var k := |parts| - 1;
      assert parts[k] == all[k];
      assert 1 <= k < |SplitAll(s, sep)| && SplitAll(s, sep)[k] != "";
    } else {
      forall k | 1 <= k < |all|
        ensures all[k] == ""
      {
        assert |parts| <= k;
      }
    }
  }

  /** A one-character separator that does not occur leaves the text whole. */
  lemma SplitWithoutSeparator(s: string, c: char)
    requires forall i :: 0 <= i < |s| ==> s[i] != c
    ensures Split(s, [c]) == [s]
  {
    forall i: nat
      ensures !OccursAt(s, [c], i)
    {
      if i + 1 <= |s| {
        assert s[i..i + 1] == [s[i]];
      }
    }
    assert !Contains(s, [c]);
  }

  /** A one-character separator that occurs once, with text after it, splits in two. */
  lemma SplitAtOnlySeparator(a: string, b: string, c: char)
    requires forall i :: 0 <= i < |a| ==> a[i] != c
    requires forall i :: 0 <= i < |b| ==> b[i] != c
    requires b != ""
    ensures Split(a + [c] + b, [c]) == [a, b]
  {
    var s := a + [c] + b;
    assert OccursAt(s, [c], |a|) by {
      assert s[|a|..|a| + 1] == [c];
    }
    assert forall j :: 0 <= j < |a| ==> s[j] == a[j];
    var i := IndexOf(s, [c]).value;
    assert s[i..i + 1] == [c] && s[i] == c;
    assert s[..i] == a && s[i + 1..] == b;
    SplitWithoutSeparator(b, c);
    assert Contains(b, [c]) == false;
    assert SplitAll(s, [c]) == [a, b];
  }

  /** A separator whose first occurrence ends the text leaves at most one piece: the text
      after it is empty and is dropped. */
  lemma SplitAtTrailingSeparator(s: string, sep: string)
    requires |sep| > 0 && IndexOf(s, sep) == Some(|s| - |sep|)
    ensures |Split(s, sep)| < 2
  {
    var i := |s| - |sep|;
    assert Contains(s, sep);
    assert SplitAll(s, sep) == [s[..i], ""] by {
      assert s[i + |sep|..] == "";
      assert IndexOf("", sep).None?;
      SplitAllHead("", sep);
    }
    SplitHasSecondPiece(s, sep);
  }
}

=== FILE: uris.dfy ===
/** Content URIs and the platform helpers the provider uses on them: `Uri.withAppendedPath`,
    `ContentUris.withAppendedId`, `ContentUris.parseId`, and `UriMatcher`. */
module Uris {
  import opened JavaInt
  import opened Optional
  import Decimal
  import Strings

  /** A hierarchical URI reduced to what a content provider inspects: its scheme, its
      authority and its decoded path segments (`getPathSegments()`). */
  datatype Uri = Uri(scheme: string, authority: string, segments: seq<string>)

  function PathText(segments: seq<string>): string
  {
    if |segments| == 0 then "" else "/" + segments[0] + PathText(segments[1..])
  }

  /** The textual form `scheme://authority/segment/...`. */
  function ToString(u: Uri): string
  {
    u.scheme + "://" + u.authority + PathText(u.segments)
  }

  /** `Uri.withAppendedPath(u, segment)` for a segment without `/`. */
  function WithAppendedPath(u: Uri, segment: string): Uri
  {
    u.(segments := u.segments + [segment])
  }

  /** `ContentUris.withAppendedId(u, id)`: appends the decimal form of `id` as a segment. */
  function WithAppendedId(u: Uri, id: int): (r: Uri)
    ensures r.scheme == u.scheme && r.authority == u.authority
    ensures |r.segments| == |u.segments| + 1 && r.segments[..|u.segments|] == u.segments
  {
    WithAppendedPath(u, Decimal.SignedToString(id))
  }

  /** `ContentUris.parseId(u)`: the last segment read by `Long.parseLong`, or -1 when the path
      is empty. `None` stands for the NumberFormatException that `parseLong` throws; for a last
      segment of digits that happens exactly when its value exceeds `Long.MAX_VALUE`. */
  function ParseId(u: Uri): (r: Option<int>)
    ensures r.Some? ==> LongMin <= r.value <= LongMax
    ensures |u.segments| > 0 && 1 <= |u.segments[|u.segments| - 1]| &&
            Decimal.AllDigits(u.segments[|u.segments| - 1]) ==>
              r == if Decimal.ValueOf(u.segments[|u.segments| - 1]) <= LongMax
                   then Some(Decimal.ValueOf(u.segments[|u.segments| - 1]) as int)
                   else None
  {
    if |u.segments| == 0 then Some(-1)
    else
      var last := u.segments[|u.segments| - 1];
      if 1 <= |last| <= 18 && Decimal.AllDigits(last) then
        Decimal.ShortDigitRunParses(last);
        Decimal.ParseLong(last)
      else Decimal.ParseLong(last)
  }

  /** `parseId` recovers every id `withAppendedId` appended, whatever the URI it was appended to. */
  lemma ParseIdWithAppendedId(u: Uri, id: int)
    requires LongMin <= id <= LongMax
    ensures ParseId(WithAppendedId(u, id)) == Some(id)
  {
    Decimal.ParseSignedToString(id, LongMin, LongMax);
  }

  /** The selection argument `String.valueOf(parseId(u))` is the URI's last segment itself
      whenever that segment is a digit run without leading zeros. */
  lemma IdArgumentIsSegment(u: Uri)
    requires |u.segments| > 0
    requires var last := u.segments[|u.segments| - 1];
             1 <= |last| && Decimal.AllDigits(last) && (|last| > 1 ==> last[0] != '0')
    requires ParseId(u).Some?
    ensures Decimal.SignedToString(ParseId(u).value) == u.segments[|u.segments| - 1]
  {
    Decimal.NatToStringValueOf(u.segments[|u.segments| - 1]);
  }

  // ---------------------------------------------------------------------------------------
  // UriMatcher

  /** A token of a registered path: a literal segment, `#` (a segment of ASCII digits) or `*`
      (any segment). */
  datatype PathToken = Exact(text: string) | Number | AnyText

  /** One `addURI(authority, path, code)` registration. */
  datatype Route = Route(authority: string, tokens: seq<PathToken>, code: int)

  /** The code `UriMatcher(NO_MATCH)` answers when nothing matches. */
  const NoMatch: int := -1

  function Token(t: string): PathToken
  {
    if t == "#" then Number else if t == "*" then AnyText else Exact(t)
  }

  /** The tokens `addURI` registers for `path`: one leading `/` stripped, then split on `/`. */
  function Tokens(path: string): seq<PathToken>
  {
    var p := if |path| > 1 && path[0] == '/' then path[1..] else path;
    var parts := Strings.Split(p, "/");
    seq(|parts|, i requires 0 <= i < |parts| => Token(parts[i]))
  }

  /** The route table after `addURI(authority, path, code)`. */
  function AddUri(routes: seq<Route>, authority: string, path: string, code: int): seq<Route>
  {
    routes + [Route(authority, Tokens(path), code)]
  }

  predicate TokenMatches(t: PathToken, segment: string)
  {
    match t
    case Exact(text) => text == segment
    case Number => Decimal.AllDigits(segment)
    case AnyText => true
  }

  /** `u` has the registered authority and one segment per token, each accepted by its token. */
  predicate RouteMatches(r: Route, u: Uri)
  {
    && r.authority == u.authority
    && |r.tokens| == |u.segments|
    && forall i :: 0 <= i < |r.tokens| ==> TokenMatches(r.tokens[i], u.segments[i])
  }

  /** `UriMatcher.match(u)`: the code of the first registration `u` matches, `NoMatch` if none. */
  function Match(routes: seq<Route>, u: Uri): (code: int)
    ensures forall i :: (0 <= i < |routes| && RouteMatches(routes[i], u) &&
                         forall j :: 0 <= j < i ==> !RouteMatches(routes[j], u)) ==> code == routes[i].code
    ensures (forall i :: 0 <= i < |routes| ==> !RouteMatches(routes[i], u)) ==> code == NoMatch
  {
    if |routes| == 0 then NoMatch
    else if RouteMatches(routes[0], u) then routes[0].code
    else
      var code := Match(routes[1..], u);
      assert forall i :: 1 <= i < |routes| ==> routes[i] == routes[1..][i - 1];
      code
  }
}

=== FILE: word.dfy ===
/** A Miwok vocabulary word: its translations, an optional picture and its pronunciation. */
module MiwokWord {
  import opened JavaInt

  /** The image resource id of a word created without a picture. */
  const NoImageProvided: Int32 := -1

  datatype Word = Word(
    defaultTranslation: string,
    miwokTranslation: string,
    imageResourceId: Int32,
    audioResourceId: Int32)

  /** `hasImage`: the image id is not the sentinel, so a word has a picture exactly when
      clearing its picture would change it. */
  function HasImage(w: Word): (has: bool)
    ensures has <==> w != w.(imageResourceId := NoImageProvided)
  {
    w.imageResourceId != NoImageProvided
  }

  /** The three-argument constructor, for the phrases that have no picture. */
  function NewWord(defaultTranslation: string, miwokTranslation: string, audioResourceId: Int32): (w: Word)
    ensures w.defaultTranslation == defaultTranslation && w.miwokTranslation == miwokTranslation
    ensures w.audioResourceId == audioResourceId
    ensures !HasImage(w)
  {
    Word(defaultTranslation, miwokTranslation, NoImageProvided, audioResourceId)
  }

  /** The four-argument constructor. */
  function NewWordWithImage(defaultTranslation: string, miwokTranslation: string,
                            imageResourceId: Int32, audioResourceId: Int32): (w: Word)
    ensures w.defaultTranslation == defaultTranslation && w.miwokTranslation == miwokTranslation
    ensures w.imageResourceId == imageResourceId && w.audioResourceId == audioResourceId
    ensures HasImage(w) <==> imageResourceId != NoImageProvided
  {
    Word(defaultTranslation, miwokTranslation, imageResourceId, audioResourceId)
  }

  /** Leaving out the picture is the same as passing the sentinel: no reader of a word can tell
      the two constructors apart then. */
  lemma NoImageIsSentinel(defaultTranslation: string, miwokTranslation: string, audioResourceId: Int32)
    ensures NewWord(defaultTranslation, miwokTranslation, audioResourceId) ==
            NewWordWithImage(defaultTranslation, miwokTranslation, NoImageProvided, audioResourceId)
  {
  }

  /** Every word comes from one of the constructors, and it has a picture exactly when it could
      not have come from the three-argument one. */
  lemma HasImageExactlyWhenConstructedWithOne(w: Word)
    ensures w == NewWordWithImage(w.defaultTranslation, w.miwokTranslation, w.imageResourceId, w.audioResourceId)
    ensures !HasImage(w) <==> w == NewWord(w.defaultTranslation, w.miwokTranslation, w.audioResourceId)
  {
  }

  /** The pronunciation does not depend on whether a picture was given, and the picture does
      not depend on the pronunciation. */
  lemma AudioIndependentOfImage(defaultTranslation: string, miwokTranslation: string,
                                image: Int32, audio: Int32, otherAudio: Int32)
    ensures NewWord(defaultTranslation, miwokTranslation, audio).audioResourceId ==
            NewWordWithImage(defaultTranslation, miwokTranslation, image, audio).audioResourceId
    ensures HasImage(NewWordWithImage(defaultTranslation, miwokTranslation, image, audio)) ==
            HasImage(NewWordWithImage(defaultTranslation, miwokTranslation, image, otherAudio))
  {
  }
}
